=== FILE: README.md ===
# EspCamLib in Dafny

A model of the core of EspCamLib, an ESP32 camera library, with proofs
about it:

- **Recorder**: the SD-card MJPEG recorder. `start` and `stop` are
  modelled, together with the two FreeRTOS tasks `start` spawns. The capture
  task moves frames from the camera into a queue of capacity 2 and drops the
  newest frame when the queue is full. The writer task moves frames from the
  queue into the open file.
- **WebServer**: the dashboard server. The model covers:
  - the `/stream` handler, with its chained chunk sends and its 32-bit
    byte counter;
  - the `/status` handler, which samples and resets that counter;
  - the `/control` handler's dispatch onto camera settings;
  - the JPEG gate in `begin`.
- **WebStream**: the bare stream server. Its handler ignores every send
  result, and its `begin` has the same JPEG gate.
- **Camera**: the camera wrapper. The model covers its configuration
  record, the sensor setters and getters, the flash guard, and the
  `CaptureData` capture result with its dispose.

Every task and every handler is a pure transition function on immutable
state. A task's loop body is cut into atomic steps, and any interleaving of
steps is a possible run.

`stop` is two steps, `StopBegin` (clear the flag) and `StopEnd` (drain and
delete the queue). Its bounded six-second wait is whatever steps the other
tasks take in between.

What the environment decides is an input:

- whether the driver returned a frame (`Option<Frame>`, where None stands
  for a null `camera_fb_t*`);
- whether each `httpd_resp_send_chunk` succeeded;
- whether the SD card is present and whether the file opened;
- what the query string held.

Frame ownership is tracked in two non-ghost multisets, `acquired` and
`released`.

The stream is modelled at chunk level. A part is three chunks:

- the text `--frame\r\nContent-Type: image/jpeg\r\nContent-Length: <N>\r\n\r\n`;
- the N payload bytes;
- `\r\n`.

This is a multipart/x-mixed-replace body in the style of section 5.1.1 of
RFC 2046. A decoder for this format is given, and round trips are proved in
both directions for the digits, the header, a single part and a whole stream.

Modules, one per file:

- `base.dfy`: `Base`, which holds `Option` and bytes.
- `frames.dfy`: `Frames`, which holds `camera_fb_t` and `pixformat_t`.
- `multipart.dfy`: `Multipart`, the wire format.
- `camera.dfy`: `Camera`.
- `recorder.dfy`: `Recorder`.
- `streaming.dfy`: `Streaming`, the vocabulary the two stream handlers share.
- `webserver.dfy`: `WebServer`.
- `webstream.dfy`: `WebStream`.

## Model

| member | source | states |
|---|---|---|
| Multipart.Decimal | src/EspCamLib/WebServer.h:107 | the decimal rendering of a length is canonical: one or more digits, with no leading zero unless the number is 0 |
| Multipart.DecimalRoundTrip | src/EspCamLib/WebServer.h:107 | reading the rendered digits back gives the length again |
| Multipart.DecimalOfValue | src/EspCamLib/WebServer.h:107 | conversely, a canonical digit string is the rendering of the number it denotes |
| Multipart.HeaderRoundTrip | src/EspCamLib/WebServer.h:107-108 | a part header announces exactly the length it was built from |
| Multipart.HeaderParsedIsWritten | src/EspCamLib/WebServer.h:107-108 | every string the header parser accepts is exactly the header the handler would write for that length |
| Multipart.PartRoundTrip | src/EspCamLib/WebServer.h:107-116 | a part, as header chunk, body chunk and CRLF chunk, decodes to the body it carries |
| Multipart.DecodedPartIsWritten | src/EspCamLib/WebServer.h:107-116 | any three chunks that decode to a body are that body's part, so the format has no other encodings |
| Multipart.StreamRoundTrip | src/EspCamLib/WebStream.h:28-41 | a stream of parts decodes to the sequence of frame bodies it was built from, in order |
| Multipart.DecodedStreamIsWritten | src/EspCamLib/WebStream.h:28-41 | conversely, every chunk sequence the decoder accepts is exactly the stream of parts for the bodies it yields, so the decoder recognises the handler's output and nothing else |
| Multipart.StreamConcat | src/EspCamLib/WebStream.h:28-41 | the stream of two runs of frames is the first run's stream followed by the second's |
| Camera.Fresh | src/EspCamLib/Camera.h:73-85 | a new camera is configured for JPEG, VGA, quality 12 and 2 frame buffers, and has never written the flash |
| Camera.SetFrameSize | src/EspCamLib/Camera.h:140-147 | the configured size changes; a present sensor gets the same size; nothing else changes |
| Camera.SetPixelFormat | src/EspCamLib/Camera.h:149-156 | `getPixelFormat` then returns the new format, with or without a sensor; a present sensor is told too; nothing else changes |
| Camera.SetJpegQuality | src/EspCamLib/Camera.h:158-165 | the configured quality changes; a present sensor gets the same quality; nothing else changes |
| Camera.SetFramebufferCount | src/EspCamLib/Camera.h:167-170 | only the configured buffer count changes: format, size, quality, sensor and flash are untouched |
| Camera.SetFlash | src/EspCamLib/Camera.h:172-179 | with flash pin -1 the camera is unchanged; otherwise the flash duty becomes the given brightness and nothing else changes |
| Camera.GetVFlip | src/EspCamLib/Camera.h:181-189 | reports true only when a sensor is present, so without a sensor it is false |
| Camera.SetVFlip | src/EspCamLib/Camera.h:191-198 | with a sensor, `getVFlip` then reads back the value set and `getHFlip` is unchanged; without a sensor nothing changes |
| Camera.GetHFlip | src/EspCamLib/Camera.h:200-208 | reports true only when a sensor is present, so without a sensor it is false |
| Camera.SetHFlip | src/EspCamLib/Camera.h:210-217 | with a sensor, `getHFlip` then reads back the value set and `getVFlip` is unchanged; without a sensor nothing changes |
| Camera.Capture | src/EspCamLib/Camera.h:219-230 | a null frame gives a failed result with no frame, an empty buffer, length 0 and zero dimensions. A frame gives a successful result holding that frame, with its bytes, length, dimensions and format. Disposing of the result hands back exactly what the driver handed out. |
| Camera.Dispose | src/EspCamLib/Camera.h:58-61 | hands a frame back exactly when the capture succeeded |
| Recorder.Init | src/EspCamLib/Recorder.h:83 | a new recorder is idle, has no queue, has the given frame rate, and satisfies the invariant |
| Recorder.SetTargetFps | src/EspCamLib/Recorder.h:90-93 | only the frame rate changes |
| Recorder.FrameDelayMs | src/EspCamLib/Recorder.h:26 | for a positive rate, the pacing interval is the whole number of milliseconds in 1000/fps: `r*fps <= 1000 < (r+1)*fps` |
| Recorder.Start | src/EspCamLib/Recorder.h:95-114 | it refuses, changing nothing, while recording or without an SD card. Otherwise it returns true, raises the flag, creates the queue and starts both tasks. The queue is empty, or a null handle when allocation failed: the result of `xQueueCreate` is not checked, and `start` still returns true. |
| Recorder.UncreatedQueueFaults | src/EspCamLib/Recorder.h:108-113 | when the queue allocation fails, `start` still succeeds. The capture task's first hand-off and the writer's first loop pass (its receive at line 67; the loop test short-circuits on the raised flag) then both use the null queue. |
| Recorder.CaptureStep | src/EspCamLib/Recorder.h:29-37 | the task ends once the flag is clear. A null frame acquires nothing and leaves the queue and releases alone. Otherwise the task holds the one frame it acquired. |
| Recorder.CaptureHandoff | src/EspCamLib/Recorder.h:39-42 | with room, the held frame joins the back of the queue. When the queue is full, the queue is unchanged and the frame is released at once (drop newest). Sending to a null queue, deleted or never created, is reported as a fault. |
| Recorder.WriterOpen | src/EspCamLib/Recorder.h:54-61 | if the file fails to open, the flag is cleared and the writer ends without writing; otherwise it enters its loop |
| Recorder.WriterStep | src/EspCamLib/Recorder.h:65-67 | the writer receives the oldest queued frame. It leaves the loop exactly when the flag is clear and the queue is empty. Receiving from a null queue, deleted or never created, is reported as a fault. |
| Recorder.WriterWrite | src/EspCamLib/Recorder.h:69-73 | appends the held frame's bytes to the file, then releases that frame |
| Recorder.StopBegin | src/EspCamLib/Recorder.h:116-121 | does nothing when not recording; otherwise clears the flag and starts waiting, changing nothing else |
| Recorder.StopEnd | src/EspCamLib/Recorder.h:129-139 | releases every frame still queued, deletes the queue and returns to the caller. The flag, the tasks, the frame rate, the file name, the file and the frame history are unchanged. |
| Recorder.StartPreservesInv | src/EspCamLib/Recorder.h:95-114 | starting from a state with nothing queued or in flight keeps the invariant (bounded queue, conservation, file contents, FIFO order) |
| Recorder.CaptureStepPreservesInv | src/EspCamLib/Recorder.h:29-37 | the capture loop head keeps the invariant |
| Recorder.CaptureHandoffPreservesInv | src/EspCamLib/Recorder.h:39-42 | the send-or-drop step keeps the invariant, so the queue never holds more than 2 frames |
| Recorder.WriterOpenPreservesInv | src/EspCamLib/Recorder.h:54-61 | opening the file, or failing to, keeps the invariant |
| Recorder.WriterStepPreservesInv | src/EspCamLib/Recorder.h:65-67 | the writer's receive keeps the invariant |
| Recorder.WriterWritePreservesInv | src/EspCamLib/Recorder.h:69-73 | writing and releasing keeps the invariant, including `file == payload of the frames written` |
| Recorder.StopBeginPreservesInv | src/EspCamLib/Recorder.h:116-121 | clearing the flag keeps the invariant |
| Recorder.StopEndPreservesInv | src/EspCamLib/Recorder.h:129-139 | draining and deleting the queue keeps the invariant |
| Recorder.StopReleasesEverything | src/EspCamLib/Recorder.h:123-139 | if the wait ends with no task holding a frame, every frame ever acquired has been released and the queue is gone |
| Recorder.CaptureRunKeepsOldest | src/EspCamLib/Recorder.h:29-45 | while the writer takes nothing, the queue ends up holding the oldest frames up to its capacity. Every later frame was acquired and released again. |
| Recorder.WriterRunWritesInOrder | src/EspCamLib/Recorder.h:65-75 | taking n frames writes the n oldest queued frames' bytes to the file in queue order, leaves the rest queued, releases exactly those n frames, and acquires nothing |
| Recorder.CleanShutdown | src/EspCamLib/Recorder.h:65-77 | once the flag is clear, a looping writer writes out every queued frame in order and then closes the file. The end of `stop` then leaves every acquired frame released. |
| Recorder.FileIsKeptFrames | src/EspCamLib/Recorder.h:71 | once nothing is queued or held by the writer, the file is the concatenation of every frame the queue accepted, in acceptance order |
| Recorder.OpenFailureStrandsQueue | src/EspCamLib/Recorder.h:56-61 | after an open failure, `stop` as written changes nothing. No task step touches the queue again. Any frame still queued is a leak. |
| Recorder.OpenFailureLeaks | src/EspCamLib/Recorder.h:116-119 | on a concrete run (one frame queued, file fails to open, `stop` called), both tasks have ended, the frame is still queued, and it was acquired but never released |
| Recorder.RestartLosesStrandedFrame | src/EspCamLib/Recorder.h:105-113 | after the open failure, a later `start` overwrites the stranded queue handle: the frame stays acquired and unreleased but is no longer queued, so frame conservation fails and no later `stop` can release it |
| Recorder.StopBeginFixed | src/EspCamLib/Recorder.h:116-121 | the corrected `stop` behaves as written while recording, and also drains when a queue is left over |
| Recorder.FixedStopReleasesAll | src/EspCamLib/Recorder.h:116-139 | with the corrected `stop` and nothing in flight, every acquired frame is released and the queue is deleted |
| Recorder.OpenFailureFixed | src/EspCamLib/Recorder.h:54-61 | on the open-failure run, the corrected `stop` leaves the recorder quiescent, leak-free and without a queue |
| Recorder.StopRaceFaults | src/EspCamLib/Recorder.h:123-138 | on a concrete run, `stop` waits only for the writer. It then deletes the queue, and the capture task sends the frame it holds into the deleted queue. |
| Recorder.StopEndFixed | src/EspCamLib/Recorder.h:123-139 | the corrected end of `stop` keeps the bounded wait for the writer. It also keeps waiting until the capture task has ended, and only then deletes the queue, so a deleted queue always comes with an ended capture task. |
| Recorder.FixedStopNoFault | src/EspCamLib/Recorder.h:123-139 | with the corrected end of `stop`, the capture task never uses a queue that `stop` deleted, whatever the camera delivers |
| Recorder.StopRaceFixed | src/EspCamLib/Recorder.h:123-139 | on the stop-race run, the corrected end of `stop` waits, then drains the sent frame, leaving the recorder quiescent and leak-free |
| WebServer.Iterate | src/EspCamLib/WebServer.h:101-126 | a failed capture sends nothing and returns ESP_FAIL. Otherwise: the chunks sent are a prefix of the frame's part; the body is sent only if the header went out; the trailer is sent only if the body went out; the frame is disposed of exactly once; the counter grows by the frame length exactly when header and body both went out; the loop goes on only in that case. |
| WebServer.TrailerResultIgnored | src/EspCamLib/WebServer.h:114-116 | the trailer's send result changes nothing in the iteration |
| WebServer.Serve | src/EspCamLib/WebServer.h:101-129 | every frame the loop captures it disposes of, once and in order, and the counter stays within 32 bits |
| WebServer.ServeSpec | src/EspCamLib/WebServer.h:101-129 | for every environment, the loop runs exactly through the leading rounds whose header and body went out. It ends with ESP_FAIL on a capture failure, or with ESP_OK on a failed send. The chunks sent (attempted) are exactly a complete part for each of those frames, in order; a part's trailer send may have failed, as its result is ignored. After them come the chunks attempted in the ending round: none after a failed capture, the header alone when the header send failed, and the header and body when the body send failed. The counter grew by exactly those frames' bytes, modulo 2^32. |
| WebServer.StreamHandler | src/EspCamLib/WebServer.h:92-96 | without its server instance the handler returns ESP_FAIL having sent and captured nothing; otherwise it runs the loop |
| WebServer.Status | src/EspCamLib/WebServer.h:28-33 | without an instance it fails and leaves the counter alone; otherwise it samples the counter and then resets it to zero |
| WebServer.SampleCountsDeliveredBytes | src/EspCamLib/WebServer.h:32-33 | between two status requests, with one stream connection, the second sample is the total length of the frames whose header and body both went out, modulo 2^32 |
| WebServer.Control | src/EspCamLib/WebServer.h:47-90 | the reply is "OK" unless the command is `reboot`, which restarts instead; an oversized or empty query, a missing key or an unknown command changes nothing; `flash`, `framesize` and `quality` pass the value on; `vflip` and `hmirror` set the negation of the current flag |
| WebServer.ToggleTwiceRestores | src/EspCamLib/WebServer.h:67-74 | sending `vflip` or `hmirror` twice leaves the camera as it was, whatever the values sent |
| WebServer.Begin | src/EspCamLib/WebServer.h:135-186 | a non-JPEG camera starts nothing and returns false; otherwise it reports success exactly when both servers started |
| WebStream.Iterate | src/EspCamLib/WebStream.h:28-41 | it never returns ESP_OK. It returns ESP_FAIL exactly on a failed capture. Otherwise it sends the frame's whole part whatever the sends return, and disposes of the frame once. |
| WebStream.ServeSpec | src/EspCamLib/WebStream.h:28-43 | for every environment, the loop returns ESP_FAIL exactly at the first failed capture, and never ESP_OK. Until then it has sent one complete part per captured frame, in order, and disposed of every captured frame. |
| WebStream.SendResultsIgnored | src/EspCamLib/WebStream.h:34-38 | two environments that differ only in send results produce identical runs |
| WebStream.StreamHandler | src/EspCamLib/WebStream.h:19-23 | never returns ESP_OK; without an instance it fails at once; otherwise it runs the loop |
| WebStream.Begin | src/EspCamLib/WebStream.h:48-68 | returns true exactly when the camera is configured for JPEG and the server started |

## Left out

- FreeRTOS concurrency: task creation, priorities, core pinning and
  `volatile` visibility. Tasks are atomic, interleaved steps. Each task has
  one slot, so a `start` while tasks of an earlier session are still alive
  is not modelled.
- Timing: `vTaskDelay` and `vTaskDelayUntil` pacing, and the one-second
  receive timeout. The six-second wait in `stop` is any interleaving of
  task steps between `StopBegin` and `StopEnd`. `FrameDelayMs` only states
  the integer interval, which needs a positive frame rate.
- Recorder.CaptureStep: a non-positive frame rate is not modelled. `Init`,
  `SetTargetFps` and `Start` accept any rate, and the modelled capture task
  runs normally, whereas with a rate of 0 the source's capture task divides
  by zero at Recorder.h:26 before its loop.
- The recorder calls `getFrame` and `releaseFrame`, which `Camera.h` does
  not declare. They are abstract acquire and release: the frame acquired is
  an input, and both events go into the multisets.
- SD card I/O is an append-only byte sequence. The file is empty when a
  session starts, as when opened for writing. A failing write is not
  modelled, and the written byte count is ignored as in the source.
  `m_recordHandle` and `m_writeHandle` are not kept; the writer's end is its
  `WriterClosed` state.
- Concurrent stream connections racing on the byte counter, and the counter
  reset racing with an increment. One connection is modelled.
- In `statusHandler`: the float kbps conversion, the JSON body, the heap
  and RSSI queries, and the IP address.
- In `controlHandler`: query extraction and `atoi` are foreign calls, so the
  handler gets the extracted name and value, or None. The handler does not
  check for a null instance; the model assumes one exists. `ESP.restart` is
  the `Restarted` outcome.
- `httpd_*` server setup and URI registration. `begin` takes whether each
  server started as an input. The index page handler serves a constant page
  and is left out, and so is the error message `begin` prints when the camera
  is not configured for JPEG.
- In the camera: `esp_camera_init` and `begin`, `setPinout`, brownout
  register writes, and LEDC PWM setup.
  - The flash output is modelled as the last duty written.
  - Sensor register calls are modelled as updating the sensor status the
    getters read, which the driver is assumed to do.
  - Copying the `Camera` by value into the servers is not modelled.
- Camera.Fresh: the default constructor leaves `flashPin` uninitialised, so
  the pin is a parameter rather than a fixed value.
- Frames.FrameBytes: frame lengths are bounded by 2^31-1, so the `(int)`
  cast of the length never wraps. A longer frame cannot be produced by the
  sensor.
- WebServer.Control: `framesize` values are kept as a raw integer code. The
  cast to `framesize_t` is not range-checked in the source either.
- Recorder.FixedStopNoFault: says nothing about the writer. The corrected
  `stop` keeps the six-second bound on its wait for the writer, so a writer
  stuck in a write past that bound can still find the queue deleted, as it
  can in the source.
- WebServer.Serve and WebStream.Serve: the loops are unbounded and are
  modelled over a finite sequence of rounds. A run that has not ended
  within them has no exit status yet.

## Findings

| source | as written | input that shows it | evidently intended | confidence | as-written member | corrected member |
|---|---|---|---|---|---|---|
| src/EspCamLib/Recorder.h:116-119 | `stop` returns early whenever the recording flag is clear. The writer clears that flag itself when the file fails to open (lines 56-61). | `start` succeeds, the capture task queues one frame, the SD open fails, then `stop` is called. `stop` returns at once, both tasks have ended, and the frame is never released; the queue is never deleted. A later `start` overwrites the queue handle, so the frame can no longer be released at all. | `stop` drains and deletes a leftover queue even when the flag is already clear | medium, not executed | Recorder.OpenFailureLeaks | Recorder.OpenFailureFixed |
| src/EspCamLib/Recorder.h:123-138 | `stop` waits only for the writer task before deleting the queue. The capture task may hold a frame acquired at line 31 and not yet sent at line 39. | `start` succeeds, the file opens, the capture task acquires a frame, then `stop` clears the flag. The writer sees an empty queue and ends. `stop` deletes the queue, then the capture task sends its frame into the deleted queue. | `stop` deletes the queue only after the capture task has ended, which takes at most one pass of its loop once the flag is clear. The wait for the writer stays bounded as written. | medium, not executed | Recorder.StopRaceFaults | Recorder.StopRaceFixed |

In both rows the model of `stop` as written (`StopBegin`, `StopEnd`)
remains the one the other Recorder lemmas are about. The corrected
definitions, `StopBeginFixed` and `StopEndFixed`, sit beside it.

=== FILE: base.dfy ===
/** Small shared vocabulary: optional values and bytes. */
module Base {

  type Byte = bv8

  /** Stands in for a handle that may be null. */
  datatype Option<+T> = None | Some(value: T)

  /** A non-empty sequence is its front followed by its last element. */
  lemma FrontLast<T>(s: seq<T>)
    requires |s| > 0
    ensures s[..|s| - 1] + [s[|s| - 1]] == s
  {
  }
}

=== FILE: camera.dfy ===
/**
 * The camera wrapper: its configuration record, the sensor it forwards
 * settings to, the flash output, and the capture result (CaptureData).
 *
 * The sensor is driver state shared by every Camera value; it is present
 * only after the driver has been initialised. The model keeps it beside the
 * configuration and treats each sensor setter as recording the new value in
 * the sensor's status, which is what the getters read back.
 */
module Camera {
  import opened Base
  import opened Frames

  const DefaultJpegQuality := 12
  const DefaultFramebufferCount := 2
  /** The pin number that marks "no flash LED on this board". */
  const NoPin := -1

  /** The fields of camera_config_t that the library sets and reads back. */
  datatype Config = Config(pixelFormat: PixelFormat, frameSize: FrameSize, jpegQuality: int, fbCount: nat)

  /** The sensor's status as the driver reports it. */
  datatype Sensor = Sensor(vflip: bool, hmirror: bool, pixelFormat: PixelFormat, frameSize: FrameSize, quality: int)

  /**
   * A camera: its configuration, its flash pin, the last duty written to the
   * flash's PWM channel (None if never written), and the driver's sensor.
   */
  datatype State = State(config: Config, flashPin: int, flashDuty: Option<int>, sensor: Option<Sensor>)

  /**
   * A newly constructed camera. The default constructor never assigns the
   * flash pin, so its value is whatever the caller's storage held; the
   * board-definition constructor assigns it from the board. Either way it
   * arrives here as `flashPin`.
   */
  function Fresh(flashPin: int, sensor: Option<Sensor>): (r: State)
    ensures GetPixelFormat(r) == Jpeg
    ensures r.config.frameSize == Vga
    ensures r.config.jpegQuality == DefaultJpegQuality
    ensures r.config.fbCount == DefaultFramebufferCount
    ensures r.flashPin == flashPin && r.flashDuty == None && r.sensor == sensor
  {
    State(Config(Jpeg, Vga, DefaultJpegQuality, DefaultFramebufferCount), flashPin, None, sensor)
  }

  function GetPixelFormat(cam: State): PixelFormat
  {
    cam.config.pixelFormat
  }

  /** The configured frame size changes; a present sensor is told as well. */
  function SetFrameSize(cam: State, size: FrameSize): (r: State)
    ensures r.config == cam.config.(frameSize := size)
    ensures r.sensor.Some? <==> cam.sensor.Some?
    ensures r.sensor.Some? ==> r.sensor.value == cam.sensor.value.(frameSize := size)
    ensures r.flashPin == cam.flashPin && r.flashDuty == cam.flashDuty
  {
    var sensor := if cam.sensor.Some? then Some(cam.sensor.value.(frameSize := size)) else None;
    cam.(config := cam.config.(frameSize := size), sensor := sensor)
  }

  /** The configured pixel format is what a later query reports, with or without a sensor. */
  function SetPixelFormat(cam: State, format: PixelFormat): (r: State)
    ensures GetPixelFormat(r) == format
    ensures r.config == cam.config.(pixelFormat := format)
    ensures r.sensor.Some? <==> cam.sensor.Some?
    ensures r.sensor.Some? ==> r.sensor.value == cam.sensor.value.(pixelFormat := format)
    ensures r.flashPin == cam.flashPin && r.flashDuty == cam.flashDuty
  {
    var sensor := if cam.sensor.Some? then Some(cam.sensor.value.(pixelFormat := format)) else None;
    cam.(config := cam.config.(pixelFormat := format), sensor := sensor)
  }

  function SetJpegQuality(cam: State, quality: int): (r: State)
    ensures r.config == cam.config.(jpegQuality := quality)
    ensures r.sensor.Some? <==> cam.sensor.Some?
    ensures r.sensor.Some? ==> r.sensor.value == cam.sensor.value.(quality := quality)
    ensures r.flashPin == cam.flashPin && r.flashDuty == cam.flashDuty
  {
    var sensor := if cam.sensor.Some? then Some(cam.sensor.value.(quality := quality)) else None;
    cam.(config := cam.config.(jpegQuality := quality), sensor := sensor)
  }

  /** Only the configuration changes; the driver reads it at initialisation, so the sensor is not told. */
  function SetFramebufferCount(cam: State, count: nat): (r: State)
    ensures r.config.fbCount == count
    ensures GetPixelFormat(r) == GetPixelFormat(cam) && r.config.frameSize == cam.config.frameSize
    ensures r.config.jpegQuality == cam.config.jpegQuality
    ensures r.sensor == cam.sensor && r.flashPin == cam.flashPin && r.flashDuty == cam.flashDuty
  {
    cam.(config := cam.config.(fbCount := count))
  }

  /** Writes the flash duty, unless the board has no flash pin. */
  function SetFlash(cam: State, brightness: int): (r: State)
    ensures cam.flashPin == NoPin ==> r == cam
    ensures cam.flashPin != NoPin ==> r == cam.(flashDuty := Some(brightness))
  {
    if cam.flashPin == NoPin then cam else cam.(flashDuty := Some(brightness))
  }

  /** The sensor's vertical-flip status; false when there is no sensor. */
  function GetVFlip(cam: State): (r: bool)
    ensures r ==> cam.sensor.Some?
  {
    if cam.sensor.Some? then cam.sensor.value.vflip else false
  }

  /** With a sensor, the flag reads back as set; without one, nothing changes. */
  function SetVFlip(cam: State, vflip: bool): (r: State)
    ensures cam.sensor.None? ==> r == cam
    ensures cam.sensor.Some? ==> GetVFlip(r) == vflip && GetHFlip(r) == GetHFlip(cam)
    ensures r.config == cam.config && r.flashPin == cam.flashPin && r.flashDuty == cam.flashDuty
    ensures r.sensor.Some? <==> cam.sensor.Some?
  {
    if cam.sensor.Some? then cam.(sensor := Some(cam.sensor.value.(vflip := vflip))) else cam
  }

  /** The sensor's horizontal-mirror status; false when there is no sensor. */
  function GetHFlip(cam: State): (r: bool)
    ensures r ==> cam.sensor.Some?
  {
    if cam.sensor.Some? then cam.sensor.value.hmirror else false
  }

  /** With a sensor, the flag reads back as set; without one, nothing changes. */
  function SetHFlip(cam: State, hmirror: bool): (r: State)
    ensures cam.sensor.None? ==> r == cam
    ensures cam.sensor.Some? ==> GetHFlip(r) == hmirror && GetVFlip(r) == GetVFlip(cam)
    ensures r.config == cam.config && r.flashPin == cam.flashPin && r.flashDuty == cam.flashDuty
    ensures r.sensor.Some? <==> cam.sensor.Some?
  {
    if cam.sensor.Some? then cam.(sensor := Some(cam.sensor.value.(hmirror := hmirror))) else cam
  }

  /**
   * The result of one capture: the driver's frame handle (None for a null
   * handle), the buffer, its length, dimensions and format, and the success flag.
   */
  datatype CaptureData = CaptureData(
    fb: Option<Frame>, buffer: seq<Byte>, length: int,
    width: int, height: int, format: PixelFormat, ok: bool)

  /**
   * A well-formed capture result: a successful one holds a frame and describes
   * it exactly; a failed one holds no frame and describes nothing.
   */
  predicate Valid(pic: CaptureData)
  {
    if pic.ok then
      && pic.fb.Some?
      && pic.buffer == pic.fb.value.data
      && pic.length == |pic.buffer|
      && pic.width == pic.fb.value.width
      && pic.height == pic.fb.value.height
      && pic.format == pic.fb.value.format
    else
      pic.fb.None? && pic.buffer == [] && pic.length == 0 && pic.width == 0 && pic.height == 0
  }

  /** Wraps what the driver returned (`driver`, None for a null frame) as a capture result. */
  function Capture(driver: Option<Frame>): (r: CaptureData)
    ensures Valid(r)
    ensures r.ok <==> driver.Some?
    ensures r.fb == driver
    ensures Dispose(r) == driver
  {
    match driver
    case None => CaptureData(None, [], 0, 0, 0, Jpeg, false)
    case Some(f) => CaptureData(Some(f), f.data, |f.data|, f.width, f.height, f.format, true)
  }

  /** The frame a dispose hands back to the driver (None when there is none to hand back). */
  function Dispose(pic: CaptureData): (r: Option<Frame>)
    requires Valid(pic)
    ensures r.Some? <==> pic.ok
  {
    pic.fb
  }
}

=== FILE: frames.dfy ===
/** The camera driver's frame-buffer vocabulary (camera_fb_t, pixformat_t, framesize_t). */
module Frames {
  import opened Base

  /** The largest byte length a frame can have and still fit the `int` the library casts it to. */
  const MaxFrameLength := 0x7FFF_FFFF

  /** A frame's payload. Longer payloads would wrap in the `(int)` cast; they cannot occur on the device. */
  type FrameBytes = s: seq<Byte> | |s| <= MaxFrameLength

  /** The driver's pixel formats, by their pixformat_t names. */
  datatype PixelFormat = Rgb565 | Yuv422 | Yuv420 | Grayscale | Jpeg | Rgb888 | Raw | Rgb444 | Rgb555

  /**
   * A frame size. The fresh camera uses VGA; the control endpoint casts an
   * arbitrary integer to framesize_t, which is kept here as its raw code.
   * The two spellings are not identified: `Code` of VGA's numeric value is a
   * different value from `Vga`, although in C they compare equal. The model
   * never compares a configured size with a requested one, so nothing rests
   * on the difference.
   */
  datatype FrameSize = Vga | Code(code: int)

  /**
   * One frame buffer handed out by the driver. `id` is the buffer's identity
   * (its address): the driver reuses buffers, so the same frame may be acquired
   * again once it has been released.
   */
  datatype Frame = Frame(id: nat, data: FrameBytes, width: nat, height: nat, format: PixelFormat)

  /** The payloads of `frames`, in order, with no framing between them. */
  function Payload(frames: seq<Frame>): (r: seq<Byte>)
  {
    if |frames| == 0 then [] else Payload(frames[..|frames| - 1]) + frames[|frames| - 1].data
  }

  /** The payload of a concatenation is the concatenation of the payloads. */
  lemma {:induction false} PayloadAppend(a: seq<Frame>, b: seq<Frame>)
    ensures Payload(a + b) == Payload(a) + Payload(b)
    decreases |b|
  {
    if |b| == 0 {
      assert a + b == a;
    } else {
      var b' := b[..|b| - 1];
      assert (a + b)[..|a + b| - 1] == a + b';
      PayloadAppend(a, b');
    }
  }

  /** Total number of payload bytes in `frames`. */
  function TotalLength(frames: seq<Frame>): (r: nat)
    ensures r == |Payload(frames)|
  {
    if |frames| == 0 then 0 else TotalLength(frames[..|frames| - 1]) + |frames[|frames| - 1].data|
  }
}

=== FILE: multipart.dfy ===
/**
 * The wire format both stream handlers emit: a multipart/x-mixed-replace body
 * (in the style of section 5.1.1 of RFC 2046) whose parts are
 * `--frame\r\nContent-Type: image/jpeg\r\nContent-Length: <N>\r\n\r\n`, then
 * N payload bytes, then `\r\n`. Each of the three pieces is sent as its own
 * HTTP chunk, so the model keeps the stream as a sequence of chunks.
 */
module Multipart {
  import opened Base

  /** One `httpd_resp_send_chunk` argument: header text or payload bytes. */
  datatype Chunk = Text(text: string) | Data(bytes: seq<Byte>)

  const PartPrefix := "--frame\r\nContent-Type: image/jpeg\r\nContent-Length: "
  const HeaderEnd := "\r\n\r\n"
  const Trailer := "\r\n"

  predicate IsDigit(c: char) { '0' <= c <= '9' }

  predicate AllDigits(s: string) { forall i | 0 <= i < |s| :: IsDigit(s[i]) }

  /** No superfluous leading zero. */
  predicate Canonical(s: string) { |s| >= 1 && AllDigits(s) && (s[0] == '0' ==> |s| == 1) }

  function DigitChar(d: nat): (c: char)
    requires d < 10
    ensures IsDigit(c)
  {
    ('0' as int + d) as char
  }

  function DigitValue(c: char): (d: nat)
    requires IsDigit(c)
    ensures d < 10
  {
    c as int - '0' as int
  }

  /** Arduino `String(n)` for a non-negative `n`: base ten, most significant digit first. */
  function Decimal(n: nat): (r: string)
    ensures Canonical(r)
    decreases n
  {
    if n < 10 then [DigitChar(n)] else Decimal(n / 10) + [DigitChar(n % 10)]
  }

  /** The number a string of decimal digits denotes. */
  function DecimalValue(s: string): (v: nat)
    requires AllDigits(s)
    decreases |s|
  {
    if |s| == 0 then 0 else DecimalValue(s[..|s| - 1]) * 10 + DigitValue(s[|s| - 1])
  }

  /** Reading back what `Decimal` wrote gives the number again. */
  lemma {:induction false} DecimalRoundTrip(n: nat)
    ensures DecimalValue(Decimal(n)) == n
    decreases n
  {
    var s := Decimal(n);
    if n >= 10 {
      assert s[..|s| - 1] == Decimal(n / 10);
      DecimalRoundTrip(n / 10);
    }
  }

  /** A canonical digit string with more than one digit denotes at least 10. */
  lemma {:induction false} CanonicalValueBound(s: string)
    requires Canonical(s) && |s| >= 2
    ensures DecimalValue(s) >= 10
    decreases |s|
  {
    var p := s[..|s| - 1];
    assert p[0] == s[0];
    if |p| >= 2 {
      CanonicalValueBound(p);
    } else {
      assert DecimalValue(p) == DigitValue(p[0]) by {
        assert p[..0] == [];
      }
    }
  }

  /** Writing out the value of a canonical digit string gives the string back. */
  lemma {:induction false} DecimalOfValue(s: string)
    requires Canonical(s)
    ensures Decimal(DecimalValue(s)) == s
    decreases |s|
  {
    if |s| == 1 {
      assert s[..0] == [];
      assert DigitChar(DigitValue(s[0])) == s[0];
    } else {
      var p := s[..|s| - 1];
      assert p[0] == s[0];
      CanonicalValueBound(s);
      DecimalOfValue(p);
      var v := DecimalValue(s);
      assert v / 10 == DecimalValue(p) && v % 10 == DigitValue(s[|s| - 1]);
      assert DigitChar(DigitValue(s[|s| - 1])) == s[|s| - 1];
      assert s == p + [s[|s| - 1]];
    }
  }

  /** The header of a part whose payload is `len` bytes long. */
  function PartHeader(len: nat): (r: string)
  {
    PartPrefix + Decimal(len) + HeaderEnd
  }

  /** Recovers the Content-Length of a part header, or None if `h` is not one. */
  function ParseHeader(h: string): (r: Option<nat>)
  {
    if |h| < |PartPrefix| + |HeaderEnd| then None
    else if h[..|PartPrefix|] != PartPrefix || h[|h| - |HeaderEnd|..] != HeaderEnd then None
    else
      var digits := h[|PartPrefix|..|h| - |HeaderEnd|];
      if Canonical(digits) then Some(DecimalValue(digits)) else None
  }

  /** The header carries the length: parsing a written header gives its length back. */
  lemma HeaderRoundTrip(len: nat)
    ensures ParseHeader(PartHeader(len)) == Some(len)
  {
    var h := PartHeader(len);
    var d := Decimal(len);
    assert h[..|PartPrefix|] == PartPrefix;
    assert h[|h| - |HeaderEnd|..] == HeaderEnd;
    assert h[|PartPrefix|..|h| - |HeaderEnd|] == d;
    DecimalRoundTrip(len);
  }

  /** Conversely, every string the parser accepts is exactly the header it would write. */
  lemma HeaderParsedIsWritten(h: string, len: nat)
    requires ParseHeader(h) == Some(len)
    ensures h == PartHeader(len)
  {
    var digits := h[|PartPrefix|..|h| - |HeaderEnd|];
    DecimalOfValue(digits);
    assert h == h[..|PartPrefix|] + digits + h[|h| - |HeaderEnd|..];
  }

  /** The three chunks of one part carrying `body`. */
  function Part(body: seq<Byte>): (r: seq<Chunk>)
    ensures |r| == 3
  {
    [Text(PartHeader(|body|)), Data(body), Text(Trailer)]
  }

  /** Reads one part back: a header, exactly as many payload bytes as it announces, and the trailer. */
  function DecodePart(c: seq<Chunk>): (r: Option<seq<Byte>>)
    requires |c| == 3
  {
    match (c[0], c[1], c[2])
    case (Text(h), Data(b), Text(t)) =>
      if ParseHeader(h) == Some(|b|) && t == Trailer then Some(b) else None
    case _ => None
  }

  /** A part decodes to the body it carries. */
  lemma PartRoundTrip(body: seq<Byte>)
    ensures DecodePart(Part(body)) == Some(body)
  {
    HeaderRoundTrip(|body|);
  }

  /** A part decodes only to a body whose part it is: the decoder accepts nothing else. */
  lemma DecodedPartIsWritten(c: seq<Chunk>, body: seq<Byte>)
    requires |c| == 3 && DecodePart(c) == Some(body)
    ensures c == Part(body)
  {
    HeaderParsedIsWritten(c[0].text, |body|);
  }

  /** The parts of `bodies`, one after another. */
  function Stream(bodies: seq<seq<Byte>>): (r: seq<Chunk>)
    ensures |r| == 3 * |bodies|
  {
    if |bodies| == 0 then [] else Stream(bodies[..|bodies| - 1]) + Part(bodies[|bodies| - 1])
  }

  /** Splits a chunk stream into parts and decodes each; None if any part is malformed. */
  function DecodeStream(c: seq<Chunk>): (r: Option<seq<seq<Byte>>>)
    decreases |c|
  {
    if |c| == 0 then Some([])
    else if |c| < 3 then None
    else match DecodePart(c[|c| - 3..])
      case None => None
      case Some(b) =>
        match DecodeStream(c[..|c| - 3])
        case None => None
        case Some(bs) => Some(bs + [b])
  }

  /** Decoding a stream with one more part appended decodes that part last. */
  lemma DecodeAppendPart(c: seq<Chunk>, bs: seq<seq<Byte>>, body: seq<Byte>)
    requires DecodeStream(c) == Some(bs)
    ensures DecodeStream(c + Part(body)) == Some(bs + [body])
  {
    var d := c + Part(body);
    assert d[|d| - 3..] == Part(body);
    assert d[..|d| - 3] == c;
    PartRoundTrip(body);
  }

  /** A client reading the stream recovers every payload, in order and byte for byte. */
  lemma {:induction false} StreamRoundTrip(bodies: seq<seq<Byte>>)
    ensures DecodeStream(Stream(bodies)) == Some(bodies)
    decreases |bodies|
  {
    if |bodies| == 0 {
      assert Stream(bodies) == [];
    } else {
      var init := bodies[..|bodies| - 1];
      var last := bodies[|bodies| - 1];
      StreamRoundTrip(init);
      StreamRoundTripStep(init, last);
      FrontLast(bodies);
    }
  }

  /** One more body: if the stream of `init` decodes, so does the stream with `last` appended. */
  lemma StreamRoundTripStep(init: seq<seq<Byte>>, last: seq<Byte>)
    requires DecodeStream(Stream(init)) == Some(init)
    ensures DecodeStream(Stream(init + [last])) == Some(init + [last])
  {
    var bodies := init + [last];
    assert bodies[..|bodies| - 1] == init;
    assert Stream(bodies) == Stream(init) + Part(last);
    DecodeAppendPart(Stream(init), init, last);
  }

  /** Conversely, a chunk sequence the decoder accepts is exactly the stream of the bodies it yields. */
  lemma {:induction false} DecodedStreamIsWritten(c: seq<Chunk>, bs: seq<seq<Byte>>)
    requires DecodeStream(c) == Some(bs)
    ensures c == Stream(bs)
    decreases |c|
  {
    if |c| > 0 {
      var front := c[..|c| - 3];
      var last := c[|c| - 3..];
      var init := DecodeStream(front).value;
      DecodedStreamIsWritten(front, init);
      DecodedPartIsWritten(last, DecodePart(last).value);
      assert bs[..|bs| - 1] == init;
      assert c == front + last;
    }
  }

  /** Streams concatenate part by part. */
  lemma {:induction false} StreamConcat(a: seq<seq<Byte>>, b: seq<seq<Byte>>)
    ensures Stream(a + b) == Stream(a) + Stream(b)
    decreases |b|
  {
    if |b| == 0 {
      assert a + b == a;
    } else {
      var b' := b[..|b| - 1];
      assert (a + b)[..|a + b| - 1] == a + b';
      StreamConcat(a, b');
    }
  }
}

=== FILE: recorder.dfy ===
/**
 * The recording session: `start`, `stop`, and the two tasks it spawns, a
 * capture task that moves frames from the camera into a queue of capacity 2
 * and a writer task that moves them from the queue into the open file.
 *
 * Each task's loop body is cut into atomic steps, and any interleaving of
 * steps of the two tasks and of the caller is a possible run. The caller's
 * `stop` is two steps: clearing the recording flag, and (after the bounded
 * wait, which any number of task steps may fill) draining and deleting the
 * queue. Frame acquisition and release (the recorder's getFrame and
 * releaseFrame) are abstract: the acquired frame is an input to the capture
 * step, and every acquisition and release is recorded in `acquired` and
 * `released`.
 */
module Recorder {
  import opened Base
  import opened Frames

  const QueueCapacity := 2
  const DefaultFrameRate := 30

  /** Where the capture task is: not running, at the head of its loop, or holding a frame it acquired. */
  datatype CaptureTask = CaptureAbsent | CaptureLooping | CaptureHolding(frame: Frame)

  /**
   * Where the writer task is: not running, about to open the file, at the
   * head of its loop, holding a frame it received, finished after closing
   * the file, or ended because the file did not open.
   */
  datatype WriterTask =
    | WriterAbsent
    | WriterOpening
    | WriterLooping
    | WriterHolding(frame: Frame)
    | WriterClosed
    | WriterAborted

  /** Whether the caller's thread is inside `stop`, between clearing the flag and draining the queue. */
  datatype Caller = Outside | Waiting

  /**
   * The recorder. `queue` is None when no queue exists (a null handle).
   * `file` is the content of the current session's file, `written` the frames
   * written to it, `kept` the frames the queue accepted this session, in order.
   */
  datatype State = State(
    frameRate: int,
    filename: string,
    recording: bool,
    queue: Option<seq<Frame>>,
    capture: CaptureTask,
    writer: WriterTask,
    caller: Caller,
    file: seq<Byte>,
    written: seq<Frame>,
    kept: seq<Frame>,
    acquired: multiset<Frame>,
    released: multiset<Frame>)

  /**
   * A step either happens, or it uses a null queue handle: one that `stop`
   * has already deleted, or one whose allocation failed in `start`.
   */
  datatype StepResult = Stepped(state: State) | NullQueue

  function Queued(s: State): seq<Frame>
  {
    if s.queue.Some? then s.queue.value else []
  }

  function CaptureHeld(s: State): multiset<Frame>
  {
    if s.capture.CaptureHolding? then multiset{s.capture.frame} else multiset{}
  }

  function WriterHeld(s: State): seq<Frame>
  {
    if s.writer.WriterHolding? then [s.writer.frame] else []
  }

  /** The frames a task has acquired or received and not yet passed on or released. */
  function InFlight(s: State): multiset<Frame>
  {
    CaptureHeld(s) + multiset(WriterHeld(s))
  }

  /**
   * The session invariant: the queue never holds more than its capacity;
   * every acquired frame is released, queued or in flight, exactly once;
   * the file holds the written frames' bytes; and the frames written, held
   * by the writer and still queued are, in that order, the frames the queue
   * accepted.
   */
  predicate Inv(s: State)
  {
    && |Queued(s)| <= QueueCapacity
    && Conserved(s)
    && s.file == Payload(s.written)
    && Ordered(s)
  }

  /** Every acquired frame is released, queued or in flight, exactly once. */
  predicate Conserved(s: State)
  {
    s.acquired == s.released + multiset(Queued(s)) + InFlight(s)
  }

  /** The frames written, then held by the writer, then queued, are the frames the queue accepted. */
  predicate Ordered(s: State)
  {
    && (s.queue.Some? ==> s.kept == s.written + WriterHeld(s) + Queued(s))
    && s.written + WriterHeld(s) <= s.kept
  }

  /** Every frame ever acquired has been released. */
  predicate LeakFree(s: State)
  {
    s.acquired == s.released
  }

  /** Nothing queued and nothing in flight: what a new session may overwrite. */
  predicate Quiet(s: State)
  {
    Queued(s) == [] && InFlight(s) == multiset{}
  }

  /** No task is running and the caller is not inside `stop`. */
  predicate Quiescent(s: State)
  {
    && s.capture == CaptureAbsent
    && (s.writer.WriterAbsent? || s.writer.WriterClosed? || s.writer.WriterAborted?)
    && s.caller == Outside
  }

  /** A newly constructed recorder. */
  function Init(fps: int): (r: State)
    ensures Inv(r) && LeakFree(r) && Quiescent(r)
    ensures !r.recording && r.queue.None? && r.frameRate == fps
  {
    State(fps, "", false, None, CaptureAbsent, WriterAbsent, Outside, [], [], [], multiset{}, multiset{})
  }

  /** Changes the frame rate used by the next capture task; nothing else changes. */
  function SetTargetFps(s: State, fps: int): (r: State)
    ensures r.frameRate == fps
    ensures r.(frameRate := s.frameRate) == s
  {
    s.(frameRate := fps)
  }

  /**
   * The capture task's pacing interval in milliseconds, `1000 / fps` in C's
   * truncating division; the source divides unguarded, so `fps` must be positive.
   */
  function FrameDelayMs(fps: int): (r: nat)
    requires fps > 0
    ensures r * fps <= 1000 < (r + 1) * fps
  {
    1000 / fps
  }

  /**
   * Starts a session: refused while one is recording, refused without an SD
   * card; otherwise records the file name, raises the flag, creates the queue
   * (empty, or a null handle when `queueCreated` says the allocation failed,
   * which is not checked) and both tasks. Returns whether it started, and the
   * new state.
   */
  function Start(s: State, filename: string, cardPresent: bool, queueCreated: bool): (r: (bool, State))
    ensures r.0 <==> !s.recording && cardPresent
    ensures !r.0 ==> r.1 == s
    ensures r.0 ==>
      && r.1.recording && r.1.queue == (if queueCreated then Some([]) else None) && r.1.filename == filename
      && r.1.capture == CaptureLooping && r.1.writer == WriterOpening
      && r.1.file == [] && r.1.acquired == s.acquired && r.1.released == s.released
  {
    if s.recording then (false, s)
    else if !cardPresent then (false, s)
    else
      (true, s.(filename := filename, recording := true, queue := if queueCreated then Some([]) else None,
                capture := CaptureLooping, writer := WriterOpening,
                file := [], written := [], kept := []))
  }

  /**
   * The head of the capture loop: the task ends once the flag is clear;
   * otherwise it tries to acquire a frame (`got`, None when the camera has
   * none) and, if it got one, holds it.
   */
  function CaptureStep(s: State, got: Option<Frame>): (r: State)
    ensures r.queue == s.queue && r.released == s.released && r.file == s.file
    ensures got.None? ==> r.acquired == s.acquired
    ensures s.capture == CaptureLooping && !s.recording ==> r.capture == CaptureAbsent
    ensures s.capture == CaptureLooping && s.recording && got.Some? ==>
      r.capture == CaptureHolding(got.value) && r.acquired == s.acquired + multiset{got.value}
  {
    if s.capture != CaptureLooping then s
    else if !s.recording then s.(capture := CaptureAbsent)
    else match got
      case None => s
      case Some(f) => s.(capture := CaptureHolding(f), acquired := s.acquired + multiset{f})
  }

  /**
   * The rest of the capture loop body: a non-blocking send of the held frame;
   * when the queue is full the frame is released at once (drop newest).
   */
  function CaptureHandoff(s: State): (r: StepResult)
    ensures r.NullQueue? <==> s.capture.CaptureHolding? && s.queue.None?
    ensures r.Stepped? ==> r.state.acquired == s.acquired && r.state.file == s.file
    ensures s.capture.CaptureHolding? && s.queue.Some? && |Queued(s)| >= QueueCapacity ==>
      && r.Stepped?
      && r.state.queue == s.queue
      && r.state.released == s.released + multiset{s.capture.frame}
    ensures s.capture.CaptureHolding? && s.queue.Some? && |Queued(s)| < QueueCapacity ==>
      && r.Stepped?
      && r.state.queue == Some(Queued(s) + [s.capture.frame])
      && r.state.released == s.released
  {
    match s.capture
    case CaptureHolding(f) =>
      (match s.queue
       case None => NullQueue
       case Some(q) =>
         if |q| < QueueCapacity then
           Stepped(s.(queue := Some(q + [f]), kept := s.kept + [f], capture := CaptureLooping))
         else
           Stepped(s.(released := s.released + multiset{f}, capture := CaptureLooping)))
    case _ => Stepped(s)
  }

  /** The writer opens the file; if that fails it clears the recording flag and ends without writing. */
  function WriterOpen(s: State, fileOk: bool): (r: State)
    ensures r.queue == s.queue && r.file == s.file && r.acquired == s.acquired && r.released == s.released
    ensures s.writer == WriterOpening && !fileOk ==> !r.recording && r.writer == WriterAborted
    ensures s.writer == WriterOpening && fileOk ==> r.recording == s.recording && r.writer == WriterLooping
  {
    if s.writer != WriterOpening then s
    else if !fileOk then s.(recording := false, writer := WriterAborted)
    else s.(writer := WriterLooping)
  }

  /**
   * The head of the writer loop: it continues while recording or while frames
   * are queued, and then receives the oldest queued frame (or times out on
   * an empty queue). When the loop ends the file is closed.
   */
  function WriterStep(s: State): (r: StepResult)
    ensures r.NullQueue? <==> s.writer == WriterLooping && s.queue.None?
    ensures r.Stepped? ==>
      r.state.acquired == s.acquired && r.state.released == s.released && r.state.file == s.file
    ensures s.writer == WriterLooping && s.queue.Some? && |Queued(s)| > 0 ==>
      && r.Stepped?
      && r.state.writer == WriterHolding(Queued(s)[0])
      && r.state.queue == Some(Queued(s)[1..])
    ensures s.writer == WriterLooping && s.queue.Some? ==>
      (r.state.writer == WriterClosed <==> !s.recording && Queued(s) == [])
  {
    if s.writer != WriterLooping then Stepped(s)
    else match s.queue
      case None => NullQueue
      case Some(q) =>
        if !(s.recording || |q| > 0) then Stepped(s.(writer := WriterClosed))
        else if |q| > 0 then Stepped(s.(writer := WriterHolding(q[0]), queue := Some(q[1..])))
        else Stepped(s)
  }

  /** The writer appends the received frame's bytes to the file and then releases the frame. */
  function WriterWrite(s: State): (r: State)
    ensures r.queue == s.queue && r.acquired == s.acquired
    ensures s.writer.WriterHolding? ==>
      && r.file == s.file + s.writer.frame.data
      && r.released == s.released + multiset{s.writer.frame}
      && r.writer == WriterLooping
  {
    match s.writer
    case WriterHolding(f) =>
      s.(file := s.file + f.data, written := s.written + [f],
         released := s.released + multiset{f}, writer := WriterLooping)
    case _ => s
  }

  /** The first half of `stop`: nothing when not recording; otherwise clear the flag and wait. */
  function StopBegin(s: State): (r: State)
    ensures !s.recording ==> r == s
    ensures s.recording ==> !r.recording && r.caller == Waiting && r.(recording := true, caller := s.caller) == s
  {
    if !s.recording then s else s.(recording := false, caller := Waiting)
  }

  /** The second half of `stop`: release every frame still queued, then delete the queue. */
  function StopEnd(s: State): (r: State)
    ensures s.caller == Outside ==> r == s
    ensures s.caller == Waiting ==>
      && r.queue.None? && r.caller == Outside
      && r.released == s.released + multiset(Queued(s))
      && r.acquired == s.acquired && r.file == s.file
      && r.capture == s.capture && r.writer == s.writer && r.recording == s.recording
    ensures s.caller == Waiting ==> r.(released := s.released, queue := s.queue, caller := Waiting) == s
  {
    if s.caller == Outside then s
    else s.(released := s.released + multiset(Queued(s)), queue := None, caller := Outside)
  }

  /** A session starts from a state nothing is left in, so the invariant carries over. */
  lemma StartPreservesInv(s: State, filename: string, cardPresent: bool, queueCreated: bool)
    requires Inv(s)
    requires cardPresent && !s.recording ==> Quiet(s)
    ensures Inv(Start(s, filename, cardPresent, queueCreated).1)
  {
  }

  /**
   * `start` does not check the queue allocation: when it fails, `start` still
   * reports success, and the first frame handed off and the writer's first
   * loop pass (its receive; the loop test short-circuits on the raised flag)
   * both use the null queue.
   */
  lemma UncreatedQueueFaults(s: State, filename: string, f: Frame)
    requires !s.recording
    ensures var (ok, t) := Start(s, filename, true, false);
            && ok
            && CaptureHandoff(CaptureStep(t, Some(f))) == NullQueue
            && WriterStep(WriterOpen(t, true)) == NullQueue
  {
  }

  lemma CaptureStepPreservesInv(s: State, got: Option<Frame>)
    requires Inv(s)
    ensures Inv(CaptureStep(s, got))
  {
    if s.capture == CaptureLooping {
      if !s.recording {
        CaptureEndPreservesInv(s);
      } else if got.Some? {
        AcquirePreservesInv(s, got.value);
      }
    }
  }

  lemma CaptureEndPreservesInv(s: State)
    requires Inv(s) && s.capture == CaptureLooping
    ensures Inv(s.(capture := CaptureAbsent))
  {
    var r := s.(capture := CaptureAbsent);
    assert Queued(r) == Queued(s) && WriterHeld(r) == WriterHeld(s);
    assert CaptureHeld(r) == CaptureHeld(s) == multiset{};
    assert Conserved(r);
    assert Ordered(r);
  }

  lemma AcquirePreservesInv(s: State, f: Frame)
    requires Inv(s) && s.capture == CaptureLooping
    ensures Inv(s.(capture := CaptureHolding(f), acquired := s.acquired + multiset{f}))
  {
    var r := s.(capture := CaptureHolding(f), acquired := s.acquired + multiset{f});
    assert Queued(r) == Queued(s) && WriterHeld(r) == WriterHeld(s);
    assert CaptureHeld(s) == multiset{} && CaptureHeld(r) == multiset{f};
    assert InFlight(r) == InFlight(s) + multiset{f};
    assert Conserved(r);
    assert Ordered(r);
  }

  lemma CaptureHandoffPreservesInv(s: State)
    requires Inv(s) && CaptureHandoff(s).Stepped?
    ensures Inv(CaptureHandoff(s).state)
  {
    if s.capture.CaptureHolding? {
      var f := s.capture.frame;
      var q := s.queue.value;
      if |q| < QueueCapacity {
        EnqueuePreservesInv(s, f, q);
      } else {
        DropPreservesInv(s, f);
      }
    }
  }

  lemma EnqueuePreservesInv(s: State, f: Frame, q: seq<Frame>)
    requires Inv(s) && s.capture == CaptureHolding(f) && s.queue == Some(q) && |q| < QueueCapacity
    ensures Inv(s.(queue := Some(q + [f]), kept := s.kept + [f], capture := CaptureLooping))
  {
    var r := s.(queue := Some(q + [f]), kept := s.kept + [f], capture := CaptureLooping);
    assert WriterHeld(r) == WriterHeld(s);
    assert CaptureHeld(s) == multiset{f} && CaptureHeld(r) == multiset{};
    assert Queued(r) == q + [f];
    assert multiset(Queued(r)) == multiset(q) + multiset{f};
    assert Conserved(r);
    assert r.written + WriterHeld(r) + Queued(r) == (s.written + WriterHeld(s) + q) + [f];
    assert Ordered(r);
  }

  lemma DropPreservesInv(s: State, f: Frame)
    requires Inv(s) && s.capture == CaptureHolding(f)
    ensures Inv(s.(released := s.released + multiset{f}, capture := CaptureLooping))
  {
    var r := s.(released := s.released + multiset{f}, capture := CaptureLooping);
    assert WriterHeld(r) == WriterHeld(s) && Queued(r) == Queued(s);
    assert CaptureHeld(s) == multiset{f} && CaptureHeld(r) == multiset{};
    assert Conserved(r);
  }

  lemma WriterOpenPreservesInv(s: State, fileOk: bool)
    requires Inv(s)
    ensures Inv(WriterOpen(s, fileOk))
  {
    var r := WriterOpen(s, fileOk);
    assert WriterHeld(r) == WriterHeld(s) == [] || r == s;
  }

  lemma WriterStepPreservesInv(s: State)
    requires Inv(s) && WriterStep(s).Stepped?
    ensures Inv(WriterStep(s).state)
  {
    if s.writer == WriterLooping {
      var q := s.queue.value;
      if |q| > 0 {
        TakePreservesInv(s, q);
      } else {
        var r := WriterStep(s).state;
        assert WriterHeld(r) == WriterHeld(s) == [];
        assert Queued(r) == Queued(s) && CaptureHeld(r) == CaptureHeld(s);
        assert Conserved(r);
        assert Ordered(r);
      }
    }
  }

  lemma TakePreservesInv(s: State, q: seq<Frame>)
    requires Inv(s) && s.writer == WriterLooping && s.queue == Some(q) && |q| > 0
    ensures Inv(s.(writer := WriterHolding(q[0]), queue := Some(q[1..])))
  {
    var r := s.(writer := WriterHolding(q[0]), queue := Some(q[1..]));
    assert q == [q[0]] + q[1..];
    assert WriterHeld(s) == [] && WriterHeld(r) == [q[0]];
    assert Queued(r) == q[1..];
    assert CaptureHeld(r) == CaptureHeld(s);
    assert multiset(q) == multiset{q[0]} + multiset(q[1..]);
    assert Conserved(r);
    assert s.written + WriterHeld(r) + Queued(r) == s.written + WriterHeld(s) + Queued(s);
    assert Ordered(r);
  }

  lemma WriterWritePreservesInv(s: State)
    requires Inv(s)
    ensures Inv(WriterWrite(s))
  {
    if s.writer.WriterHolding? {
      WritePreservesInv(s, s.writer.frame);
    }
  }

  lemma WritePreservesInv(s: State, f: Frame)
    requires Inv(s) && s.writer == WriterHolding(f)
    ensures Inv(s.(file := s.file + f.data, written := s.written + [f],
                   released := s.released + multiset{f}, writer := WriterLooping))
  {
    var r := s.(file := s.file + f.data, written := s.written + [f],
                released := s.released + multiset{f}, writer := WriterLooping);
    assert WriterHeld(s) == [f] && WriterHeld(r) == [];
    assert Queued(r) == Queued(s) && CaptureHeld(r) == CaptureHeld(s);
    assert Conserved(r);
    assert r.written[..|r.written| - 1] == s.written;
    assert r.file == Payload(r.written);
    assert r.written + WriterHeld(r) == s.written + WriterHeld(s);
    assert Ordered(r);
  }

  lemma StopBeginPreservesInv(s: State)
    requires Inv(s)
    ensures Inv(StopBegin(s))
  {
  }

  lemma StopEndPreservesInv(s: State)
    requires Inv(s)
    ensures Inv(StopEnd(s))
  {
    var r := StopEnd(s);
    if s.caller == Waiting {
      assert Queued(r) == [];
      assert InFlight(r) == InFlight(s);
      if s.queue.Some? {
        assert s.written + WriterHeld(s) <= s.written + WriterHeld(s) + Queued(s);
      }
    }
  }

  /**
   * A stop whose wait ended with no task holding a frame (the writer
   * finished, or is wedged between frames) leaves nothing unreleased.
   */
  lemma StopReleasesEverything(s: State)
    requires Inv(s) && s.caller == Waiting && InFlight(s) == multiset{}
    ensures LeakFree(StopEnd(s)) && StopEnd(s).queue.None?
  {
  }

  function Min(a: nat, b: nat): nat { if a <= b then a else b }

  /** One pass of the capture loop body that acquires `f`. */
  function CaptureFrame(s: State, f: Frame): StepResult
  {
    CaptureHandoff(CaptureStep(s, Some(f)))
  }

  /** The capture task alone, acquiring each of `frames` in turn, with no writer step in between. */
  function CaptureRun(s: State, frames: seq<Frame>): (r: StepResult)
    decreases |frames|
  {
    if |frames| == 0 then Stepped(s)
    else match CaptureFrame(s, frames[0])
      case NullQueue => NullQueue
      case Stepped(t) => CaptureRun(t, frames[1..])
  }

  /** What one pass of the capture loop does to the queue and the accounting. */
  lemma CaptureFrameEffect(s: State, f: Frame)
    requires s.recording && s.capture == CaptureLooping && s.queue.Some?
    ensures var r := CaptureFrame(s, f);
            var q := Queued(s);
            && r.Stepped?
            && r.state.queue == Some(if |q| < QueueCapacity then q + [f] else q)
            && r.state.acquired == s.acquired + multiset{f}
            && r.state.released == (if |q| < QueueCapacity then s.released else s.released + multiset{f})
            && r.state.recording && r.state.capture == CaptureLooping && r.state.writer == s.writer
  {
  }

  /**
   * Drop newest, in bulk: while the writer takes nothing, the queue ends up
   * holding the oldest frames up to its capacity, and every later frame was
   * acquired and released again at once.
   */
  lemma {:induction false} CaptureRunKeepsOldest(s: State, frames: seq<Frame>)
    requires s.recording && s.capture == CaptureLooping && s.queue.Some? && |Queued(s)| <= QueueCapacity
    ensures var r := CaptureRun(s, frames);
            var all := Queued(s) + frames;
            var k := Min(QueueCapacity, |all|);
            && r.Stepped?
            && r.state.queue == Some(all[..k])
            && r.state.acquired == s.acquired + multiset(frames)
            && r.state.released == s.released + multiset(all[k..])
            && r.state.recording && r.state.capture == CaptureLooping && r.state.writer == s.writer
    decreases |frames|
  {
    if |frames| > 0 {
      var f := frames[0];
      var rest := frames[1..];
      CaptureFrameEffect(s, f);
      var t := CaptureFrame(s, f).state;
      assert CaptureRun(s, frames) == CaptureRun(t, rest);
      CaptureRunKeepsOldest(t, rest);
      KeepOldestStep(Queued(s), f, rest);
      assert frames == [f] + rest;
    }
  }

  /** The sequence arithmetic behind one step of `CaptureRunKeepsOldest`. */
  lemma KeepOldestStep(q: seq<Frame>, f: Frame, rest: seq<Frame>)
    requires |q| <= QueueCapacity
    ensures var q' := if |q| < QueueCapacity then q + [f] else q;
            var all := q + ([f] + rest);
            var all' := q' + rest;
            var k := Min(QueueCapacity, |all|);
            var k' := Min(QueueCapacity, |all'|);
            && all'[..k'] == all[..k]
            && multiset(all[k..])
               == (if |q| < QueueCapacity then multiset{} else multiset{f}) + multiset(all'[k'..])
            && multiset([f] + rest) == multiset{f} + multiset(rest)
  {
    var all := q + ([f] + rest);
    if |q| < QueueCapacity {
      assert q + [f] + rest == all;
    } else {
      assert all[..QueueCapacity] == q;
      assert all[QueueCapacity..] == [f] + rest;
    }
  }

  /** One pass of the writer loop body that receives a frame and writes it. */
  function WriterFrame(s: State): StepResult
  {
    match WriterStep(s)
    case NullQueue => NullQueue
    case Stepped(t) => Stepped(WriterWrite(t))
  }

  /** The writer alone, receiving and writing `n` frames. */
  function WriterRun(s: State, n: nat): (r: StepResult)
    decreases n
  {
    if n == 0 then Stepped(s)
    else match WriterFrame(s)
      case NullQueue => NullQueue
      case Stepped(t) => WriterRun(t, n - 1)
  }

  /**
   * `r` is `s` after the writer has taken the `n` oldest queued frames,
   * appended their bytes to the file in queue order and released them,
   * with nothing else changed.
   */
  predicate WroteOldest(s: State, r: State, n: nat)
  {
    && s.queue.Some? && n <= |Queued(s)|
    && r.file == s.file + Payload(Queued(s)[..n])
    && r.queue == Some(Queued(s)[n..])
    && r.released == s.released + multiset(Queued(s)[..n])
    && r.acquired == s.acquired
    && r.writer == s.writer && r.recording == s.recording
    && r.capture == s.capture && r.caller == s.caller
  }

  /** What one pass of the writer loop does when a frame is queued. */
  lemma WriterFrameEffect(s: State)
    requires s.writer == WriterLooping && s.queue.Some? && |Queued(s)| > 0
    ensures WriterFrame(s).Stepped? && WroteOldest(s, WriterFrame(s).state, 1)
  {
    var q := Queued(s);
    assert Payload(q[..1]) == q[0].data by {
      assert q[..1][..0] == [];
    }
    assert q[..1] == [q[0]];
  }

  /** Writing the oldest frame and then the `n - 1` next is writing the `n` oldest. */
  lemma WroteOldestCompose(s: State, t: State, r: State, n: nat)
    requires 0 < n && WroteOldest(s, t, 1) && WroteOldest(t, r, n - 1) && n <= |Queued(s)|
    ensures WroteOldest(s, r, n)
  {
    var q := Queued(s);
    assert Queued(t) == q[1..];
    assert q[1..][n - 1..] == q[n..];
    assert q[..n] == q[..1] + q[1..][..n - 1];
    PayloadAppend(q[..1], q[1..][..n - 1]);
  }

  /**
   * FIFO: the writer takes queued frames oldest first, appends each frame's
   * bytes to the file, and releases each frame once it has been written.
   */
  lemma {:induction false} WriterRunWritesInOrder(s: State, n: nat)
    requires s.writer == WriterLooping && s.queue.Some? && n <= |Queued(s)|
    ensures WriterRun(s, n).Stepped? && WroteOldest(s, WriterRun(s, n).state, n)
    decreases n
  {
    if n == 0 {
      assert Queued(s)[..0] == [];
    } else {
      WriterFrameEffect(s);
      var t := WriterFrame(s).state;
      assert WriterRun(s, n) == WriterRun(t, n - 1);
      WriterRunWritesInOrder(t, n - 1);
      WroteOldestCompose(s, t, WriterRun(t, n - 1).state, n);
    }
  }

  /**
   * A clean shutdown: once the flag is clear, a writer that is still
   * looping writes out every queued frame in order and closes the file, and
   * the end of `stop` then leaves every acquired frame released.
   */
  lemma CleanShutdown(s: State)
    requires Inv(s) && !s.recording && s.caller == Waiting
    requires s.writer == WriterLooping && s.queue.Some? && !s.capture.CaptureHolding?
    ensures var q := Queued(s);
            var drained := WriterRun(s, |q|);
            && drained.Stepped?
            && WriterStep(drained.state).Stepped?
            && var closed := WriterStep(drained.state).state;
            && closed.writer == WriterClosed
            && closed.file == s.file + Payload(q)
            && LeakFree(StopEnd(closed))
  {
    var q := Queued(s);
    WriterRunWritesInOrder(s, |q|);
    assert q[..|q|] == q;
    var d := WriterRun(s, |q|).state;
    assert Queued(d) == [];
    assert InFlight(s) == multiset{};
  }

  /**
   * What the writer wrote is the frames the queue accepted, in order, once it
   * holds none and none remain queued.
   */
  lemma FileIsKeptFrames(s: State)
    requires Inv(s) && s.queue.Some? && Queued(s) == [] && !s.writer.WriterHolding?
    ensures s.file == Payload(s.kept)
  {
    assert WriterHeld(s) == [];
    assert s.kept == s.written + [] + [];
    assert s.kept == s.written;
  }

  /**
   * As written, `stop` tests only the recording flag. After the writer failed
   * to open the file the flag is already clear, so `stop` does nothing, and
   * no task will ever touch the queue again: frames queued before the failure
   * are never released and the queue is never deleted.
   */
  lemma OpenFailureStrandsQueue(s: State, got: Option<Frame>)
    requires Inv(s) && !s.recording && s.writer == WriterAborted && s.caller == Outside
    requires !s.capture.CaptureHolding?
    ensures StopEnd(StopBegin(s)) == s
    ensures CaptureStep(s, got).queue == s.queue && CaptureStep(s, got).released == s.released
    ensures WriterStep(s) == Stepped(s) && WriterWrite(s) == s
    ensures Queued(s) != [] ==> !LeakFree(s)
  {
    if Queued(s) != [] {
      assert |s.acquired| == |s.released| + |Queued(s)|;
    }
  }

  /** The start of a run into the open-failure path: a frame is queued, the file fails to open, the capture task ends. */
  function OpenFailurePrefix(f: Frame): StepResult
  {
    var s1 := Start(Init(DefaultFrameRate), "/video.mjpeg", true, true).1;
    var s2 := CaptureStep(s1, Some(f));
    match CaptureHandoff(s2)
    case NullQueue => NullQueue
    case Stepped(s3) =>
      var s4 := WriterOpen(s3, false);
      Stepped(CaptureStep(s4, None))
  }

  /** That run, finished by a call of `stop`. */
  function OpenFailureRun(f: Frame, stop: State -> State): StepResult
  {
    match OpenFailurePrefix(f)
    case NullQueue => NullQueue
    case Stepped(s) => Stepped(StopEnd(stop(s)))
  }

  /** Before `stop` is called, both tasks have ended, the flag is clear and the frame sits in the queue. */
  lemma OpenFailureStrands(f: Frame)
    ensures var r := OpenFailurePrefix(f);
            && r.Stepped? && !r.state.recording && r.state.caller == Outside
            && r.state.capture == CaptureAbsent && r.state.writer == WriterAborted
            && r.state.queue == Some([f])
            && r.state.acquired == multiset{f} && r.state.released == multiset{}
  {
    var s1 := Start(Init(DefaultFrameRate), "/video.mjpeg", true, true).1;
    var s3 := CaptureHandoff(CaptureStep(s1, Some(f))).state;
    assert s3.queue == Some([] + [f]);
    assert [] + [f] == [f];
  }

  /** On that run, with `stop` as written, both tasks have ended and the frame is still held by the queue. */
  lemma OpenFailureLeaks(f: Frame)
    ensures var r := OpenFailureRun(f, StopBegin);
            && r.Stepped? && Quiescent(r.state)
            && r.state.queue == Some([f])
            && r.state.acquired == multiset{f} && r.state.released == multiset{}
  {
    OpenFailureStrands(f);
  }

  /**
   * A later `start` after the open failure overwrites the stranded queue
   * handle: the frame is still acquired and unreleased, but no longer queued,
   * so no later `stop` can ever release it.
   */
  lemma RestartLosesStrandedFrame(f: Frame)
    ensures var s := OpenFailurePrefix(f).state;
            var t := Start(s, "/video.mjpeg", true, true).1;
            && t.queue == Some([]) && f in t.acquired && f !in t.released
            && !Conserved(t)
  {
    OpenFailureStrands(f);
  }

  /**
   * The evidently intended `stop`: it also runs when a queue is left over,
   * so the open-failure path is drained too. While recording it is the same
   * as `StopBegin`.
   */
  function StopBeginFixed(s: State): (r: State)
    ensures s.recording ==> r == StopBegin(s)
    ensures !s.recording && s.queue.None? ==> r == s
    ensures s.queue.Some? ==> !r.recording && r.caller == Waiting
  {
    if !s.recording && s.queue.None? then s else s.(recording := false, caller := Waiting)
  }

  /** With the corrected `stop`, a stop with nothing in flight leaves every acquired frame released. */
  lemma FixedStopReleasesAll(s: State)
    requires Inv(s) && s.caller == Outside && InFlight(s) == multiset{}
    ensures LeakFree(StopEnd(StopBeginFixed(s)))
    ensures StopEnd(StopBeginFixed(s)).queue.None?
  {
    var b := StopBeginFixed(s);
    assert Queued(b) == Queued(s) && InFlight(b) == InFlight(s);
  }

  /** On the open-failure run, the corrected `stop` releases the stranded frame. */
  lemma OpenFailureFixed(f: Frame)
    ensures var r := OpenFailureRun(f, StopBeginFixed);
            && r.Stepped? && Quiescent(r.state) && LeakFree(r.state) && r.state.queue.None?
  {
    OpenFailureStrands(f);
    var s := OpenFailurePrefix(f).state;
    assert multiset(Queued(s)) == multiset{f};
  }

  /**
   * A run into the stop race: the capture task acquires a frame and, before
   * it hands the frame off, `stop` clears the flag; the writer sees an empty
   * queue and closes the file, so the wait ends and `stopEnd` runs; then the
   * capture task sends its frame, and its loop head sees the flag clear;
   * finally `stopEnd` runs once more, standing for a later call of `stop`.
   */
  function StopRaceRun(f: Frame, stopEnd: State -> State): StepResult
  {
    var s1 := Start(Init(DefaultFrameRate), "/video.mjpeg", true, true).1;
    var s2 := WriterOpen(s1, true);
    var s3 := CaptureStep(s2, Some(f));
    var s4 := StopBegin(s3);
    match WriterStep(s4)
    case NullQueue => NullQueue
    case Stepped(s5) =>
      match CaptureHandoff(stopEnd(s5))
      case NullQueue => NullQueue
      case Stepped(s6) => Stepped(stopEnd(CaptureStep(s6, None)))
  }

  /**
   * As written, `stop` waits only for the writer task, so on that run the
   * capture task sends its frame to the queue `stop` has just deleted.
   */
  lemma StopRaceFaults(f: Frame)
    ensures StopRaceRun(f, StopEnd) == NullQueue
  {
    var s1 := Start(Init(DefaultFrameRate), "/video.mjpeg", true, true).1;
    var s4 := StopBegin(CaptureStep(WriterOpen(s1, true), Some(f)));
    assert Queued(s4) == [];
    var s5 := WriterStep(s4).state;
    assert s5.writer == WriterClosed;
  }

  /**
   * The capture task has ended. Once the flag is clear it ends at its next
   * loop head, so waiting for this is bounded by one pass of its loop.
   */
  predicate CaptureEnded(s: State)
  {
    s.capture == CaptureAbsent
  }

  /**
   * The evidently intended end of `stop`: besides the bounded wait for the
   * writer, it waits for the capture task to end before deleting the queue,
   * and until then it keeps waiting.
   */
  function StopEndFixed(s: State): (r: State)
    ensures !CaptureEnded(s) ==> r == s
    ensures CaptureEnded(s) ==> r == StopEnd(s)
    ensures s.queue.Some? && r.queue.None? ==> CaptureEnded(r)
  {
    if CaptureEnded(s) then StopEnd(s) else s
  }

  /**
   * With the corrected end of `stop`, the capture task never finds the queue
   * deleted under it, whatever the camera delivers.
   */
  lemma FixedStopNoFault(s: State, got: Option<Frame>)
    requires s.queue.Some?
    ensures var r := StopEndFixed(s);
            r.queue.None? ==> CaptureHandoff(CaptureStep(r, got)).Stepped?
  {
  }

  /** On the stop-race run, the corrected end of `stop` waits, then drains the frame the capture task sent. */
  lemma StopRaceFixed(f: Frame)
    ensures var r := StopRaceRun(f, StopEndFixed);
            && r.Stepped? && Quiescent(r.state) && LeakFree(r.state) && r.state.queue.None?
  {
    var s1 := Start(Init(DefaultFrameRate), "/video.mjpeg", true, true).1;
    var s4 := StopBegin(CaptureStep(WriterOpen(s1, true), Some(f)));
    assert Queued(s4) == [];
    var s5 := WriterStep(s4).state;
    assert StopEndFixed(s5) == s5;
    var s6 := CaptureHandoff(s5).state;
    assert s6.queue == Some([] + [f]);
    assert [] + [f] == [f];
    var s7 := CaptureStep(s6, None);
    assert multiset(Queued(s7)) == multiset{f};
  }
}

=== FILE: streaming.dfy ===
/**
 * Vocabulary shared by the two stream handlers: the HTTP server's status
 * codes, what the environment decides in one loop iteration (what the
 * camera returns and how each send fares), and what a handler run produces.
 */
module Streaming {
  import opened Base
  import opened Frames
  import opened Multipart

  /** The esp_err_t values a handler returns. */
  datatype EspErr = EspOk | EspFail

  /** Whether each of the three chunk sends of one part succeeds. */
  datatype Sends = Sends(header: bool, body: bool, trailer: bool)

  /** One loop iteration's environment: the driver's frame (None for no frame) and the send outcomes. */
  datatype Round = Round(driver: Option<Frame>, sends: Sends)

  /**
   * A handler run: the chunks it sent (attempted, in order), the frames it
   * captured and those it disposed, in order, the byte counter afterwards,
   * and the status returned (None while the loop is still running).
   */
  datatype Session = Session(
    sent: seq<Chunk>, acquired: seq<Frame>, disposed: seq<Frame>, counter: nat, exit: Option<EspErr>)

  /** The frames the driver handed out in `rounds`, in order. */
  function Captured(rounds: seq<Round>): (r: seq<Frame>)
    ensures |r| <= |rounds|
  {
    if |rounds| == 0 then []
    else (if rounds[0].driver.Some? then [rounds[0].driver.value] else []) + Captured(rounds[1..])
  }

  /** The payloads of `frames`, one byte string per frame. */
  function Bodies(frames: seq<Frame>): (r: seq<seq<Byte>>)
    ensures |r| == |frames|
    ensures forall i | 0 <= i < |frames| :: r[i] == frames[i].data
  {
    seq(|frames|, i requires 0 <= i < |frames| => frames[i].data)
  }

  lemma CapturedCons(r0: Round, rest: seq<Round>)
    ensures Captured([r0] + rest)
         == (if r0.driver.Some? then [r0.driver.value] else []) + Captured(rest)
  {
    assert ([r0] + rest)[1..] == rest;
  }

  /** Taking a prefix of `[r0] + rest` one longer than a prefix of `rest`. */
  lemma PrefixCons(r0: Round, rest: seq<Round>, j: nat)
    requires j <= |rest|
    ensures ([r0] + rest)[..j + 1] == [r0] + rest[..j]
  {
  }

  lemma BodiesCons(f: Frame, fs: seq<Frame>)
    ensures Bodies([f] + fs) == [f.data] + Bodies(fs)
  {
  }

  /** The stream of parts for `[f] + fs` is `f`'s part followed by the stream for `fs`. */
  lemma StreamCons(f: Frame, fs: seq<Frame>)
    ensures Stream(Bodies([f] + fs)) == Part(f.data) + Stream(Bodies(fs))
  {
    BodiesCons(f, fs);
    StreamConcat([f.data], Bodies(fs));
    assert Stream([f.data]) == Part(f.data) by {
      assert [f.data][..0] == [];
    }
  }

  /** Total payload bytes of `[f] + fs`. */
  lemma TotalLengthCons(f: Frame, fs: seq<Frame>)
    ensures TotalLength([f] + fs) == |f.data| + TotalLength(fs)
  {
    PayloadAppend([f], fs);
    assert Payload([f]) == f.data by {
      assert [f][..0] == [];
    }
  }
}

=== FILE: webserver.dfy ===
/**
 * The dashboard server: the streaming handler's loop with its send
 * chaining and byte counter, the status handler that samples and resets
 * the counter, the control handler's dispatch onto camera settings, and the
 * pixel-format gate in `begin`.
 */
module WebServer {
  import opened Base
  import opened Frames
  import opened Multipart
  import opened Streaming
  import Camera

  /** `size_t` is 32 bits wide on the ESP32: the byte counter wraps modulo this. */
  const SizeModulus := 0x1_0000_0000

  /** The shared byte counter (`m_bytes_per_sec`). */
  type Counter = n: nat | n < SizeModulus

  /** Header and body both went out: the only case in which the loop goes on. */
  predicate Continues(round: Round)
  {
    round.driver.Some? && round.sends.header && round.sends.body
  }

  /** The outcome of one iteration of the streaming loop. */
  datatype Iteration = Iteration(sent: seq<Chunk>, disposed: seq<Frame>, counter: Counter, exit: Option<EspErr>)

  /**
   * One iteration: capture; on failure return ESP_FAIL. Otherwise send the
   * header, the body only if the header went out, the trailer only if the
   * body went out (its own result is not looked at), count the frame's bytes
   * if header and body went out, dispose of the frame, and leave the loop
   * (ESP_OK) if a send failed.
   */
  function Iterate(round: Round, counter: Counter): (r: Iteration)
    ensures round.driver.None? <==> r.exit == Some(EspFail)
    ensures round.driver.None? ==> r.sent == [] && r.disposed == [] && r.counter == counter
    ensures round.driver.Some? ==>
      && r.disposed == [round.driver.value]
      && 1 <= |r.sent| <= 3
      && r.sent == Part(round.driver.value.data)[..|r.sent|]
      && (|r.sent| >= 2 <==> round.sends.header)
      && (|r.sent| == 3 <==> round.sends.header && round.sends.body)
    ensures r.exit.None? <==> Continues(round)
    ensures r.counter == if Continues(round) then (counter + |round.driver.value.data|) % SizeModulus else counter
  {
    var pic := Camera.Capture(round.driver);
    if !pic.ok then Iteration([], [], counter, Some(EspFail))
    else
      var len: nat := pic.length;
      assert pic.buffer[..len] == round.driver.value.data;
      var header := Text(PartHeader(len));
      var res := round.sends.header;
      var sent := [header] + (if res then [Data(pic.buffer[..len])] else []);
      var res := res && round.sends.body;
      var sent := sent + (if res then [Text(Trailer)] else []);
      var counter' := if res then (counter + len) % SizeModulus else counter;
      var disposed := [Camera.Dispose(pic).value];
      Iteration(sent, disposed, counter', if res then None else Some(EspOk))
  }

  /** The trailer's send result changes nothing. */
  lemma TrailerResultIgnored(round: Round, counter: Counter, trailer: bool)
    ensures Iterate(round.(sends := round.sends.(trailer := trailer)), counter) == Iterate(round, counter)
  {
  }

  /** The number of leading rounds in which header and body both went out. */
  function Streak(rounds: seq<Round>): (k: nat)
    ensures k <= |rounds|
    ensures forall i | 0 <= i < k :: Continues(rounds[i])
    ensures k < |rounds| ==> !Continues(rounds[k])
  {
    if |rounds| == 0 || !Continues(rounds[0]) then 0 else 1 + Streak(rounds[1..])
  }

  /** The rounds the loop consumes: the streak, plus the round that ended it, if any. */
  function Consumed(rounds: seq<Round>): (n: nat)
    ensures n <= |rounds|
  {
    if Streak(rounds) < |rounds| then Streak(rounds) + 1 else Streak(rounds)
  }

  /** The frames the loop sends in full: those captured during the streak. */
  function Delivered(rounds: seq<Round>): seq<Frame>
  {
    Captured(rounds[..Streak(rounds)])
  }

  /** The frames the loop captures: those of the rounds it consumes. */
  function Taken(rounds: seq<Round>): seq<Frame>
  {
    Captured(rounds[..Consumed(rounds)])
  }

  /** A first round that is fully sent adds its frame in front of the rest's. */
  lemma DeliveredCons(rounds: seq<Round>)
    requires |rounds| > 0 && Continues(rounds[0])
    ensures Streak(rounds) == Streak(rounds[1..]) + 1
    ensures Delivered(rounds) == [rounds[0].driver.value] + Delivered(rounds[1..])
    ensures Taken(rounds) == [rounds[0].driver.value] + Taken(rounds[1..])
  {
    var r0 := rounds[0];
    var tail := rounds[1..];
    assert rounds == [r0] + tail;
    assert Streak(rounds) == Streak(tail) + 1;
    assert Consumed(rounds) == Consumed(tail) + 1;
    PrefixCons(r0, tail, Consumed(tail));
    CapturedCons(r0, tail[..Consumed(tail)]);
    PrefixCons(r0, tail, Streak(tail));
    CapturedCons(r0, tail[..Streak(tail)]);
  }

  lemma TakenStop(rounds: seq<Round>)
    requires |rounds| > 0 && !Continues(rounds[0])
    ensures Streak(rounds) == 0 && Delivered(rounds) == []
    ensures Taken(rounds) == if rounds[0].driver.Some? then [rounds[0].driver.value] else []
  {
    CapturedCons(rounds[0], []);
    assert rounds[..1] == [rounds[0]] + [];
  }

  /** Adding to the wrapping counter twice is adding the sum once. */
  lemma CounterStep(c: nat, a: nat, b: nat, c1: nat, c2: nat)
    requires c1 == (c + a) % SizeModulus && c2 == (c1 + b) % SizeModulus
    ensures c2 == (c + (a + b)) % SizeModulus
  {
  }

  /**
   * The streaming loop over the environment's `rounds` (the loop is unbounded;
   * a run that has not ended after the given rounds has `exit == None`).
   * Every frame it captures it disposes of, exactly once and in order.
   */
  function Serve(rounds: seq<Round>, counter: Counter): (r: Session)
    ensures r.disposed == r.acquired
    ensures r.counter < SizeModulus
    decreases |rounds|
  {
    if |rounds| == 0 then Session([], [], [], counter, None)
    else
      var it := Iterate(rounds[0], counter);
      var got := if rounds[0].driver.Some? then [rounds[0].driver.value] else [];
      if it.exit.Some? then Session(it.sent, got, it.disposed, it.counter, it.exit)
      else
        var rest := Serve(rounds[1..], it.counter);
        Session(it.sent + rest.sent, got + rest.acquired, it.disposed + rest.disposed, rest.counter, rest.exit)
  }

  /**
   * The chunks attempted in the round that ended the loop, if it ended on a
   * frame: the header alone when the header's send failed, the header and the
   * body when the body's send failed. A failed capture sends nothing.
   */
  function Cutoff(rounds: seq<Round>): (r: seq<Chunk>)
    ensures |r| <= 2
  {
    var k := Streak(rounds);
    if k < |rounds| && rounds[k].driver.Some? then
      Part(rounds[k].driver.value.data)[..if rounds[k].sends.header then 2 else 1]
    else []
  }

  /**
   * What the loop does over `rounds`: it runs exactly through the streak of
   * fully sent frames and ends on the next round, with ESP_FAIL if the camera
   * had no frame and ESP_OK if a send failed; it captures the frames of the
   * rounds it consumes; it sent (attempted) a well-formed part for each frame
   * of the streak, followed by the chunks it attempted in the ending round;
   * and the counter grew by exactly the streak's bytes. A streak part's
   * trailer send may have failed, since its result is not looked at.
   */
  predicate ServesAsSpecified(rounds: seq<Round>, counter: Counter, r: Session)
  {
    var k := Streak(rounds);
    && r.acquired == Taken(rounds)
    && (r.exit.None? <==> k == |rounds|)
    && (r.exit == Some(EspFail) <==> k < |rounds| && rounds[k].driver.None?)
    && (r.exit == Some(EspOk) <==> k < |rounds| && rounds[k].driver.Some?)
    && r.counter == (counter + TotalLength(Delivered(rounds))) % SizeModulus
    && r.sent == Stream(Bodies(Delivered(rounds))) + Cutoff(rounds)
  }

  /** The loop behaves as `ServesAsSpecified` says, for every environment. */
  lemma {:induction false} ServeSpec(rounds: seq<Round>, counter: Counter)
    ensures ServesAsSpecified(rounds, counter, Serve(rounds, counter))
    decreases |rounds|
  {
    if |rounds| == 0 {
      assert rounds[..0] == [];
    } else if !Continues(rounds[0]) {
      TakenStop(rounds);
      assert Stream(Bodies([])) == [];
    } else {
      var it := Iterate(rounds[0], counter);
      ServeSpec(rounds[1..], it.counter);
      ServeSpecCons(rounds, counter, Serve(rounds[1..], it.counter));
    }
  }

  /** The counter part of the inductive step of `ServeSpec`. */
  lemma CounterCons(rounds: seq<Round>, counter: Counter, final: nat)
    requires |rounds| > 0 && Continues(rounds[0])
    requires final == (Iterate(rounds[0], counter).counter + TotalLength(Delivered(rounds[1..]))) % SizeModulus
    ensures final == (counter + TotalLength(Delivered(rounds))) % SizeModulus
  {
    var f := rounds[0].driver.value;
    var a := |f.data|;
    var b := TotalLength(Delivered(rounds[1..]));
    var c1 := Iterate(rounds[0], counter).counter;
    assert c1 == (counter + a) % SizeModulus;
    DeliveredCons(rounds);
    TotalLengthCons(f, Delivered(rounds[1..]));
    assert TotalLength(Delivered(rounds)) == a + b;
    CounterStep(counter, a, b, c1, final);
  }

  lemma ExitCons(rounds: seq<Round>, exit: Option<EspErr>)
    requires |rounds| > 0 && Continues(rounds[0])
    requires var k := Streak(rounds[1..]);
             && (exit.None? <==> k == |rounds[1..]|)
             && (exit == Some(EspFail) <==> k < |rounds[1..]| && rounds[1..][k].driver.None?)
             && (exit == Some(EspOk) <==> k < |rounds[1..]| && rounds[1..][k].driver.Some?)
    ensures var k := Streak(rounds);
            && (exit.None? <==> k == |rounds|)
            && (exit == Some(EspFail) <==> k < |rounds| && rounds[k].driver.None?)
            && (exit == Some(EspOk) <==> k < |rounds| && rounds[k].driver.Some?)
  {
    DeliveredCons(rounds);
  }

  /** A fully sent first round leaves the ending round, and so its chunks, to the rest. */
  lemma CutoffCons(rounds: seq<Round>)
    requires |rounds| > 0 && Continues(rounds[0])
    ensures Cutoff(rounds) == Cutoff(rounds[1..])
  {
    DeliveredCons(rounds);
  }

  /** The chunk part of the inductive step of `ServeSpec`: the first frame's part comes first. */
  lemma SentCons(rounds: seq<Round>, restSent: seq<Chunk>)
    requires |rounds| > 0 && Continues(rounds[0])
    requires restSent == Stream(Bodies(Delivered(rounds[1..]))) + Cutoff(rounds[1..])
    ensures Part(rounds[0].driver.value.data) + restSent == Stream(Bodies(Delivered(rounds))) + Cutoff(rounds)
  {
    DeliveredCons(rounds);
    CutoffCons(rounds);
    StreamCons(rounds[0].driver.value, Delivered(rounds[1..]));
  }

  /** The inductive step of `ServeSpec`: a fully sent first round, followed by the rest of the run. */
  lemma ServeSpecCons(rounds: seq<Round>, counter: Counter, rest: Session)
    requires |rounds| > 0 && Continues(rounds[0])
    requires ServesAsSpecified(rounds[1..], Iterate(rounds[0], counter).counter, rest)
    ensures var it := Iterate(rounds[0], counter);
            ServesAsSpecified(rounds, counter,
              Session(it.sent + rest.sent, [rounds[0].driver.value] + rest.acquired,
                      it.disposed + rest.disposed, rest.counter, rest.exit))
  {
    var f := rounds[0].driver.value;
    var it := Iterate(rounds[0], counter);
    assert it.sent == Part(f.data);
    DeliveredCons(rounds);
    ExitCons(rounds, rest.exit);
    CounterCons(rounds, counter, rest.counter);
    SentCons(rounds, rest.sent);
  }

  /** The streaming handler: without its server instance it fails at once; otherwise it runs the loop. */
  function StreamHandler(instancePresent: bool, rounds: seq<Round>, counter: Counter): (r: Session)
    ensures !instancePresent ==> r == Session([], [], [], counter, Some(EspFail))
    ensures instancePresent ==> r == Serve(rounds, counter)
  {
    if !instancePresent then Session([], [], [], counter, Some(EspFail)) else Serve(rounds, counter)
  }

  /** What the status handler reads: the counter's value, after which the counter is zero. */
  datatype Sample = NoInstance | Sampled(bytes: Counter)

  /** Samples the counter and resets it (the kilobit conversion and JSON body are not modelled). */
  function Status(instancePresent: bool, counter: Counter): (r: (Sample, Counter))
    ensures !instancePresent ==> r == (NoInstance, counter)
    ensures instancePresent ==> r.0 == Sampled(counter) && r.1 == 0
  {
    if !instancePresent then (NoInstance, counter) else (Sampled(counter), 0)
  }

  /**
   * Between two status requests, with one streaming connection, the second
   * sample reports exactly the bytes of the frames whose header and body
   * both went out (modulo the counter's width).
   */
  lemma SampleCountsDeliveredBytes(counter: Counter, rounds: seq<Round>)
    ensures var afterFirst := Status(true, counter).1;
            var afterStream := Serve(rounds, afterFirst).counter;
            Status(true, afterStream).0 == Sampled(TotalLength(Delivered(rounds)) % SizeModulus)
  {
    ServeSpec(rounds, 0);
  }

  /** A control request's `var` and `val` as extracted from the query string, `val` already converted. */
  datatype Query = Query(name: string, value: int)

  /** The control handler's outcome: the reply "OK" with the updated camera, or a restart (no reply). */
  datatype ControlOutcome = Responded(camera: Camera.State, body: string) | Restarted

  /** The query buffer is 128 bytes including the terminator. */
  const QueryBufferSize := 128

  /** The query string is used only when it is non-empty and fits the buffer. */
  predicate QueryFits(queryLen: nat)
  {
    1 < queryLen + 1 < QueryBufferSize
  }

  /** The commands the control handler recognises. */
  const Commands: set<string> := {"flash", "vflip", "hmirror", "framesize", "quality", "reboot"}

  /**
   * The control handler: `query` is None when the query string or either of
   * its `var` and `val` keys could not be extracted.
   */
  function Control(cam: Camera.State, queryLen: nat, query: Option<Query>): (r: ControlOutcome)
    ensures r.Restarted? <==> QueryFits(queryLen) && query.Some? && query.value.name == "reboot"
    ensures r.Responded? ==> r.body == "OK"
    ensures !QueryFits(queryLen) || query.None? || query.value.name !in Commands ==> r == Responded(cam, "OK")
    ensures QueryFits(queryLen) && query.Some? ==>
      var v := query.value.value;
      match query.value.name
      case "flash" => r.camera == Camera.SetFlash(cam, v)
      case "vflip" => r.camera == Camera.SetVFlip(cam, !Camera.GetVFlip(cam))
      case "hmirror" => r.camera == Camera.SetHFlip(cam, !Camera.GetHFlip(cam))
      case "framesize" => r.camera == Camera.SetFrameSize(cam, Code(v))
      case "quality" => r.camera == Camera.SetJpegQuality(cam, v)
      case _ => true
  {
    if !QueryFits(queryLen) || query.None? then Responded(cam, "OK")
    else
      var name := query.value.name;
      var value := query.value.value;
      if name == "flash" then Responded(Camera.SetFlash(cam, value), "OK")
      else if name == "vflip" then Responded(Camera.SetVFlip(cam, !Camera.GetVFlip(cam)), "OK")
      else if name == "hmirror" then Responded(Camera.SetHFlip(cam, !Camera.GetHFlip(cam)), "OK")
      else if name == "framesize" then Responded(Camera.SetFrameSize(cam, Code(value)), "OK")
      else if name == "quality" then Responded(Camera.SetJpegQuality(cam, value), "OK")
      else if name == "reboot" then Restarted
      else Responded(cam, "OK")
  }

  /** Sending `vflip` or `hmirror` twice leaves the camera as it was, whatever `val` says. */
  lemma ToggleTwiceRestores(cam: Camera.State, queryLen: nat, name: string, v1: int, v2: int)
    requires QueryFits(queryLen) && (name == "vflip" || name == "hmirror")
    ensures var once := Control(cam, queryLen, Some(Query(name, v1)));
            once.Responded? && Control(once.camera, queryLen, Some(Query(name, v2))) == Responded(cam, "OK")
  {
    var once := Control(cam, queryLen, Some(Query(name, v1)));
    if cam.sensor.Some? {
      assert once.camera.sensor.Some?;
    }
  }

  /** Which of the two HTTP servers are running. */
  datatype Servers = Servers(control: bool, stream: bool)

  /**
   * Starts the control server and the stream server, which succeed as
   * `controlStarts` and `streamStarts` say; refuses to start anything unless
   * the camera is configured for JPEG.
   */
  function Begin(cam: Camera.State, controlStarts: bool, streamStarts: bool): (r: (bool, Servers))
    ensures Camera.GetPixelFormat(cam) != Jpeg ==> r == (false, Servers(false, false))
    ensures r.0 <==> Camera.GetPixelFormat(cam) == Jpeg && controlStarts && streamStarts
    ensures Camera.GetPixelFormat(cam) == Jpeg ==> r.1 == Servers(controlStarts, streamStarts)
  {
    if Camera.GetPixelFormat(cam) != Jpeg then (false, Servers(false, false))
    else (controlStarts && streamStarts, Servers(controlStarts, streamStarts))
  }
}

=== FILE: webstream.dfy ===
/**
 * The bare stream server: one handler that streams parts for as long as the
 * camera delivers frames, sending each part's three chunks without looking
 * at whether they went out, and a `begin` that insists on JPEG.
 */
module WebStream {
  import opened Base
  import opened Frames
  import opened Multipart
  import opened Streaming
  import Camera

  /** A handler run: the chunks sent, the frames captured and those disposed, in order, and the status returned. */
  datatype Run = Run(sent: seq<Chunk>, acquired: seq<Frame>, disposed: seq<Frame>, exit: Option<EspErr>)

  /**
   * One iteration: capture; on failure return ESP_FAIL. Otherwise send the
   * part header, the frame's bytes and the trailer, whatever the sends
   * return, and dispose of the frame.
   */
  function Iterate(round: Round): (r: Run)
    ensures r.exit != Some(EspOk)
    ensures r.exit.Some? <==> round.driver.None?
    ensures round.driver.None? ==> r.sent == [] && r.acquired == [] && r.disposed == []
    ensures round.driver.Some? ==>
      && r.sent == Part(round.driver.value.data)
      && r.acquired == [round.driver.value] && r.disposed == r.acquired
  {
    var pic := Camera.Capture(round.driver);
    if !pic.ok then Run([], [], [], Some(EspFail))
    else
      var len: nat := pic.length;
      assert pic.buffer[..len] == round.driver.value.data;
      var sent := [Text(PartHeader(len)), Data(pic.buffer[..len]), Text(Trailer)];
      Run(sent, [pic.fb.value], [Camera.Dispose(pic).value], None)
  }

  /** The number of leading rounds in which the camera delivered a frame. */
  function Captures(rounds: seq<Round>): (k: nat)
    ensures k <= |rounds|
    ensures forall i | 0 <= i < k :: rounds[i].driver.Some?
    ensures k < |rounds| ==> rounds[k].driver.None?
  {
    if |rounds| == 0 || rounds[0].driver.None? then 0 else 1 + Captures(rounds[1..])
  }

  /**
   * The streaming loop over the environment's `rounds` (the loop is unbounded;
   * a run that has not ended after the given rounds has `exit == None`).
   */
  function Serve(rounds: seq<Round>): (r: Run)
    decreases |rounds|
  {
    if |rounds| == 0 then Run([], [], [], None)
    else
      var it := Iterate(rounds[0]);
      if it.exit.Some? then it
      else
        var rest := Serve(rounds[1..]);
        Run(it.sent + rest.sent, it.acquired + rest.acquired, it.disposed + rest.disposed, rest.exit)
  }

  /**
   * What the loop does over `rounds`: it never returns ESP_OK; it returns
   * ESP_FAIL exactly when the camera fails to deliver a frame, on the first
   * such round; and until then it sends one complete part per frame, and
   * disposes of every frame it captured, in order.
   */
  predicate ServesAsSpecified(rounds: seq<Round>, r: Run)
  {
    var k := Captures(rounds);
    && r.exit == (if k < |rounds| then Some(EspFail) else None)
    && r.acquired == Captured(rounds[..k])
    && r.disposed == r.acquired
    && r.sent == Stream(Bodies(r.acquired))
  }

  /** The loop behaves as `ServesAsSpecified` says, for every environment. */
  lemma {:induction false} ServeSpec(rounds: seq<Round>)
    ensures ServesAsSpecified(rounds, Serve(rounds))
    decreases |rounds|
  {
    if |rounds| == 0 {
      assert rounds[..0] == [];
    } else if rounds[0].driver.None? {
      assert rounds[..0] == [];
    } else {
      ServeSpec(rounds[1..]);
      ServeSpecCons(rounds, Serve(rounds[1..]));
    }
  }

  /** The inductive step of `ServeSpec`: a delivered first frame, followed by the rest of the run. */
  lemma ServeSpecCons(rounds: seq<Round>, rest: Run)
    requires |rounds| > 0 && rounds[0].driver.Some?
    requires ServesAsSpecified(rounds[1..], rest)
    ensures var it := Iterate(rounds[0]);
            ServesAsSpecified(rounds,
              Run(it.sent + rest.sent, it.acquired + rest.acquired, it.disposed + rest.disposed, rest.exit))
  {
    var r0 := rounds[0];
    var tail := rounds[1..];
    var k := Captures(tail);
    assert rounds == [r0] + tail;
    assert Captures(rounds) == k + 1;
    PrefixCons(r0, tail, k);
    CapturedCons(r0, tail[..k]);
    StreamCons(r0.driver.value, rest.acquired);
  }

  /** What the client receives depends only on the frames: the send results are never looked at. */
  lemma SendResultsIgnored(rounds: seq<Round>, others: seq<Round>)
    requires |rounds| == |others|
    requires forall i | 0 <= i < |rounds| :: rounds[i].driver == others[i].driver
    ensures Serve(rounds) == Serve(others)
  {
    var a := Serve(rounds);
    var b := Serve(others);
    ServeSpec(rounds);
    ServeSpec(others);
    CapturesAgree(rounds, others);
    var k := Captures(rounds);
    CapturedAgree(rounds[..k], others[..k]);
    assert a.acquired == b.acquired;
  }

  lemma {:induction false} CapturesAgree(rounds: seq<Round>, others: seq<Round>)
    requires |rounds| == |others|
    requires forall i | 0 <= i < |rounds| :: rounds[i].driver == others[i].driver
    ensures Captures(rounds) == Captures(others)
    decreases |rounds|
  {
    if |rounds| > 0 && rounds[0].driver.Some? {
      CapturesAgree(rounds[1..], others[1..]);
    }
  }

  lemma {:induction false} CapturedAgree(rounds: seq<Round>, others: seq<Round>)
    requires |rounds| == |others|
    requires forall i | 0 <= i < |rounds| :: rounds[i].driver == others[i].driver
    ensures Captured(rounds) == Captured(others)
    decreases |rounds|
  {
    if |rounds| > 0 {
      CapturedAgree(rounds[1..], others[1..]);
    }
  }

  /** The streaming handler: without its server instance it fails at once; otherwise it runs the loop. */
  function StreamHandler(instancePresent: bool, rounds: seq<Round>): (r: Run)
    ensures r.exit != Some(EspOk)
    ensures !instancePresent ==> r == Run([], [], [], Some(EspFail))
    ensures instancePresent ==> r == Serve(rounds)
  {
    ServeSpec(rounds);
    if !instancePresent then Run([], [], [], Some(EspFail)) else Serve(rounds)
  }

  /**
   * Starts the stream server, which comes up as `serverStarts` says; refuses
   * to start unless the camera is configured for JPEG. Returns whether the
   * server is running.
   */
  function Begin(cam: Camera.State, serverStarts: bool): (r: bool)
    ensures r <==> Camera.GetPixelFormat(cam) == Jpeg && serverStarts
  {
    if Camera.GetPixelFormat(cam) != Jpeg then false else serverStarts
  }
}
